=== FILE: README.md ===
# Bevy roguelike tutorial: the turn-based core in Dafny

This project models the game logic of the roguelike examples shipped with
`bracket-bevy`. The main model is the complete tutorial
(`bevy_roguelike_tutorial`). There the `Map` resource, the entity store and
the `GameState` turn machine are advanced once per frame by a fixed chain of
Bevy stages:

1. visibility (in Bevy's `Update` stage)
2. monster AI
3. map indexing
4. player movement
5. melee combat
6. damage
7. corpse cleanup
8. rendering

Chapter 5 of the tutorial (`bevy_roguelike_tutorial_5`) is modelled alongside it. It has one `tick` system that moves the player and recomputes fields of view.

In the complete tutorial, every system is a pure function on a `World.Game`, which holds four things:

- the grid map, with its layers `tiles`, `blocked`, `visible`, `revealed` and `content`;
- the entity store, a map from entity id to a record with every component as an optional field;
- the turn state;
- the `PlayerPosition` resource.

Chapter 5 has no turn state and no `PlayerPosition`. Its functions (`Tutorial5.MovePlayer`, `Tutorial5.Visibility5`, `Tutorial5.Tick5`) take the grid map and the entity store as a pair. Movement and a tick return an `Option`, which is `None` where the source panics.

The iteration order of a Bevy query is an explicit `seq<Id>`. Bevy's deferred
`Commands` are a queue applied after the pass that issued them. Two library
routines are parameters of the model:

- `field_of_view` is a function from an origin and a range to points;
- `a_star_search` is a function from start index, goal index and the `blocked` layer to a path.

Modules:

- `Basics` holds `Option` and the sequence helpers `Last`, `Distinct` and `Sum`, with the lemma that a sum does not depend on the order of its terms.
- `Components`, `GridMaps`, `World` and `RunStates` hold the data model.
- `Visibility`, `MonsterAi`, `MapIndexing`, `Melee`, `DamageResolution` and `CorpseCleanup` hold one system each.
- `Schedule` and `Pipeline` hold the stage list built in `main` and one tick over it.
- `Setup` and `Numerals` hold the startup system and the decimal names of monsters.
- `Tutorial5` holds chapter 5.

Three behaviours of the code are worth stating up front:

- **Damage from two attackers.** A target without `SufferDamage` gets the component through a deferred `insert`. When two attackers hit such a target in the same pass, the second `insert` replaces the first, so only the last hit of the pass is taken (`Melee.SecondInsertOverwritesFirst`, `Pipeline.MeleeThenDamage`). Hits do add up, in any order, when the target already carried `SufferDamage` (`DamageResolution.DamageOrderIndependent`).
- **Turn transitions per tick.** `damage_system` performs exactly one transition of `GameState` per tick (`Pipeline.TickAdvancesTurn`), so a player turn takes two ticks to settle back to `AwaitingInput` (`Pipeline.PlayerTurnSettles`).
- **Variants of `RunState`.** The enum in the tutorial's main.rs lists `PreRun` twice. The model has the four distinct states that the code matches on.

## Model

| member | source | states |
|---|---|---|
| RunStates.NextState | bracket-bevy/examples/bevy_roguelike_tutorial/systems.rs:165-170 | `PreRun` and `MonsterTurn` go to `AwaitingInput` and `PlayerTurn` goes to `MonsterTurn`. Only `AwaitingInput` is a fixed point. No transition leads to `PreRun` or `PlayerTurn`. |
| RunStates.SettlesInTwo | bracket-bevy/examples/bevy_roguelike_tutorial/systems.rs:165-170 | Without input, two or more transitions bring any state to `AwaitingInput`. |
| RunStates.AwaitingInputStays | bracket-bevy/examples/bevy_roguelike_tutorial/systems.rs:165-166 | `AwaitingInput` stays put for any number of transitions. |
| RunStates.NoInputStates | bracket-bevy/examples/bevy_roguelike_tutorial/systems.rs:165-170 | Without player input, one or more transitions never lead to `PreRun` or `PlayerTurn`. They lead to `MonsterTurn` exactly when the start is `PlayerTurn` and there is a single transition. |
| GridMaps.Idx | bracket-bevy/examples/bevy_roguelike_tutorial/systems.rs:35 | `xy_idx` as `y * width + x`. No contract of its own; `GridMaps.IdxInRange` and `GridMaps.IdxInjective` state its properties. |
| GridMaps.PointOf | bracket-bevy/examples/bevy_roguelike_tutorial/systems.rs:76-77 | The path-step decode `(i % width, i / width)`. No contract of its own; `GridMaps.PointOfIdx` states that it inverts `Idx`. |
| GridMaps.MarkAll | bracket-bevy/examples/bevy_roguelike_tutorial/systems.rs:34-37 | The write loop over a viewshed's points. Its contract keeps the layer's length; `GridMaps.MarkAllSpec` states which entries end up true. |
| GridMaps.IdxInRange | bracket-bevy/examples/bevy_roguelike_tutorial/systems.rs:35-37 | The `xy_idx` of a point inside the map is a valid index of every layer. |
| GridMaps.IdxInjective | bracket-bevy/examples/bevy_roguelike_tutorial/systems.rs:99 | Distinct points inside the map have distinct indices. |
| GridMaps.PointOfIdx | bracket-bevy/examples/bevy_roguelike_tutorial/systems.rs:76-78 | Decoding an index as `(i % width, i / width)` gives a point inside the map whose index is `i` again. |
| GridMaps.MarkAllSpec | bracket-bevy/examples/bevy_roguelike_tutorial/systems.rs:34-38 | After marking the points of a list, an entry is true exactly when it was true before or some point of the list lies on it. |
| GridMaps.MarkAllMonotone | bracket-bevy/examples/bevy_roguelike_tutorial/systems.rs:36 | Marking never clears an entry. |
| Visibility.KeepInBounds | bracket-bevy/examples/bevy_roguelike_tutorial/systems.rs:26-28 | A point is kept exactly when it was in the list and lies inside the map. The list never grows. |
| Visibility.VisibilitySystem | bracket-bevy/examples/bevy_roguelike_tutorial/systems.rs:11-43 | The system does nothing in `AwaitingInput`. It keeps the turn state, the player position, the set of entities and every map layer except `visible` and `revealed`. |
| Visibility.RefreshAll | bracket-bevy/examples/bevy_roguelike_tutorial/systems.rs:17-41 | The query loop of `visibility_system`. No contract of its own; `Visibility.RefreshAllFrame`, `Visibility.RefreshAllLayers` and `Visibility.PlayerVisibility` state its effect. |
| Visibility.RefreshAllFrame | bracket-bevy/examples/bevy_roguelike_tutorial/systems.rs:17-28 | Each entity visited with a dirty viewshed and a position gets the in-bounds field of view from its position and range, and its flag is cleared. Every other entity is unchanged. |
| Visibility.RefreshAllLayers | bracket-bevy/examples/bevy_roguelike_tutorial/systems.rs:30-38 | When the sole player is recomputed, `visible` becomes exactly the player's new tiles and `revealed` gains them. Otherwise both layers stay as they were. |
| Visibility.RecomputedTilesInBounds | bracket-bevy/examples/bevy_roguelike_tutorial/systems.rs:26-37 | A recomputed viewshed holds only in-bounds points, so every index the pass writes exists, and the viewshed is no longer dirty. |
| Visibility.CleanViewshedsUntouched | bracket-bevy/examples/bevy_roguelike_tutorial/systems.rs:18 | An entity that is not dirty, or lacks a viewshed or position, leaves the pass unchanged. |
| Visibility.PlayerVisibility | bracket-bevy/examples/bevy_roguelike_tutorial/systems.rs:30-38 | After the player's recompute, tile `i` is visible exactly when a point of the player's viewshed lies on it. It is revealed exactly when it was revealed before or is visible now. |
| Visibility.LayersOnlyFollowPlayer | bracket-bevy/examples/bevy_roguelike_tutorial/systems.rs:16-41 | `revealed` only goes from false to true. When the player is not recomputed, neither layer changes. |
| MonsterAi.MeleeReachIsAdjacency | bracket-bevy/examples/bevy_roguelike_tutorial/systems.rs:56-58 | Pythagorean distance below 1.5 is the same as squared distance at most 2, and the same as the same or a neighbouring tile in all eight directions. |
| MonsterAi.StepToward | bracket-bevy/examples/bevy_roguelike_tutorial/systems.rs:67-81 | Without a successful path of two or more steps nothing changes. Otherwise the monster moves to the decoded `steps[1]` with a dirty viewshed. That tile is blocked, the old tile is unblocked (unless it is the same tile), and every other tile keeps its `blocked` entry. |
| MonsterAi.Visit | bracket-bevy/examples/bevy_roguelike_tutorial/systems.rs:54-82 | A monster that does not see the player, and every other entity, is skipped: the map and the store are returned as they were. A monster that sees the player but is out of reach takes exactly `StepToward`'s step: it moves, with a dirty viewshed, when its path is usable, and the map and store stay as they were when it is not. It stays inside the map when paths stay inside it. |
| MonsterAi.MonsterAiSystem | bracket-bevy/examples/bevy_roguelike_tutorial/systems.rs:53 | The system acts only in `MonsterTurn`. It keeps the state, the player position, the set of entities and the tiles. |
| MonsterAi.AiPass | bracket-bevy/examples/bevy_roguelike_tutorial/systems.rs:54-84 | The query loop of `monster_ai_system`, ending at the first monster with the player in reach. No contract of its own. `MonsterAi.AiPassFrame` and `MonsterAi.AiAttackEndsPass` state its frame and its early end. `MonsterAi.AiStepsMonster` states each monster's step. |
| MonsterAi.AiPassFrame | bracket-bevy/examples/bevy_roguelike_tutorial/systems.rs:54-55 | Entities not visited, or not seeing the player, leave the pass unchanged. Of the map, only `blocked` can change, and when no visited monster sees the player the map is unchanged. |
| MonsterAi.AiPassOutcomes | bracket-bevy/examples/bevy_roguelike_tutorial/systems.rs:55-81 | A monster that sees the player ends one of three ways. It is unchanged. Or it had the player in reach and gains `WantsToMelee` on the player and nothing else. Or it was out of reach and moved to a tile inside the map. |
| MonsterAi.AiPassPrefix | bracket-bevy/examples/bevy_roguelike_tutorial/systems.rs:54-83 | While no monster attacks, the pass over an order is the pass over its first `k` entities followed by the pass over the rest, and the first part leaves every other entity as it was. |
| MonsterAi.AiStepsMonster | bracket-bevy/examples/bevy_roguelike_tutorial/systems.rs:55-81 | A monster that sees the player out of reach, with no attacker before it, ends the pass where `StepToward` puts it on the map as it stands at its turn. It moves with a dirty viewshed exactly when that path is usable, and it is unchanged otherwise. |
| MonsterAi.AiAttackEndsPass | bracket-bevy/examples/bevy_roguelike_tutorial/systems.rs:58-65 | The first monster in iteration order with the player in reach gains the melee intent. Every entity after it is left untouched, and the map is the one the monsters before it left (`return`). |
| MonsterAi.AiNoAttackNoIntent | bracket-bevy/examples/bevy_roguelike_tutorial/systems.rs:58-65 | When no monster has the player in reach, no melee intent changes. |
| MonsterAi.AiKeepsPositionsInBounds | bracket-bevy/examples/bevy_roguelike_tutorial/systems.rs:72-79 | With paths that stay on the map, every position stays on the map. |
| MapIndexing.IndexEntities | bracket-bevy/examples/bevy_roguelike_tutorial/systems.rs:96-106 | Indexing changes only the `blocked` and `content` layers. |
| MapIndexing.MapIndexingSystem | bracket-bevy/examples/bevy_roguelike_tutorial/systems.rs:95 | The system does nothing in `AwaitingInput`. It never changes the entities, the state, the tiles or the sight layers. |
| MapIndexing.OccupantsMembership | bracket-bevy/examples/bevy_roguelike_tutorial/systems.rs:98-105 | An entity is among a tile's occupants exactly when the pass visits it and it stands on that tile. |
| MapIndexing.IndexEntitiesSpec | bracket-bevy/examples/bevy_roguelike_tutorial/systems.rs:96-106 | A tile is blocked exactly when it is a wall or a `BlocksTile` entity of the pass stands on it. Its content is exactly the entities of the pass standing on it, in iteration order. |
| MapIndexing.ContentListsPositionedEntities | bracket-bevy/examples/bevy_roguelike_tutorial/systems.rs:98-105 | With every position on the map and the pass over all entities, an entity is listed on tile `i` exactly when its position is the point of `i`. |
| MapIndexing.IndexEntitiesIgnoresOldIndex | bracket-bevy/examples/bevy_roguelike_tutorial/systems.rs:96-97 | The result does not depend on the old `blocked` and `content` layers. |
| MapIndexing.IndexingIdempotent | bracket-bevy/examples/bevy_roguelike_tutorial/systems.rs:95-107 | Indexing twice is indexing once. |
| Melee.Damage | bracket-bevy/examples/bevy_roguelike_tutorial/systems.rs:133 | Damage is never negative. It is `power - defense` when that is positive and 0 otherwise. |
| Melee.ApplyCommands | bracket-bevy/examples/bevy_roguelike_tutorial/systems.rs:142-150 | The deferred commands applied in issue order after the pass. No contract of its own; `Melee.ApplyCommandsSpec` states its effect. |
| Melee.AttackOne | bracket-bevy/examples/bevy_roguelike_tutorial/systems.rs:128-150 | One attacker's iteration: an immediate push onto an existing `SufferDamage`, or a queued insert, and always a queued removal. No contract of its own; stated through `Melee.MeleePassPushes`, `Melee.MeleePassInserts` and `Melee.MeleePassRemoves`. |
| Melee.MeleePass | bracket-bevy/examples/bevy_roguelike_tutorial/systems.rs:127-151 | The attackers loop of `melee_combat_system`. No contract of its own; `Melee.MeleePassAgree`, `Melee.MeleePassPushes`, `Melee.MeleePassInserts` and `Melee.MeleePassRemoves` state its effect. |
| Melee.ApplyCommandsSpec | bracket-bevy/examples/bevy_roguelike_tutorial/systems.rs:142-150 | After the deferred commands, an entity's `SufferDamage` is the last one inserted for it, if any. Its `WantsToMelee` is gone exactly when a removal was queued for it. |
| Melee.LastInsertAppend | bracket-bevy/examples/bevy_roguelike_tutorial/systems.rs:142-144 | In a queue made of two parts, the entity's last insert is the later part's when that part has one, and the earlier part's otherwise. |
| Melee.HitsOn | bracket-bevy/examples/bevy_roguelike_tutorial/systems.rs:128-146 | Every hit that lands is a positive amount. |
| Melee.MeleeCombatSystem | bracket-bevy/examples/bevy_roguelike_tutorial/systems.rs:126 | The system does nothing in `AwaitingInput`. It keeps the map, the state, the player position and the set of entities. |
| Melee.LandsAgree | bracket-bevy/examples/bevy_roguelike_tutorial/systems.rs:128-132 | Whether an attack lands, and for how much, depends only on the components the pass never changes. |
| Melee.MeleePassAgree | bracket-bevy/examples/bevy_roguelike_tutorial/systems.rs:127-151 | The pass changes nothing but existing `SufferDamage` lists, and never adds or removes one. |
| Melee.MeleePassPushes | bracket-bevy/examples/bevy_roguelike_tutorial/systems.rs:139-140 | A target that already carried `SufferDamage` has every landed hit appended, in attack order. |
| Melee.MeleePassInserts | bracket-bevy/examples/bevy_roguelike_tutorial/systems.rs:141-145 | A target without `SufferDamage` ends with the last hit inserted for it, if any. |
| Melee.MeleePassRemoves | bracket-bevy/examples/bevy_roguelike_tutorial/systems.rs:150 | A removal of `WantsToMelee` is queued exactly for the attackers the pass visits, hit or miss. |
| Melee.MeleeOutcome | bracket-bevy/examples/bevy_roguelike_tutorial/systems.rs:126-152 | Per entity: an existing `SufferDamage` is extended by all hits on it. A fresh one holds only the last hit. Every visited attacker loses its intent. Nothing else changes. |
| Melee.SecondInsertOverwritesFirst | bracket-bevy/examples/bevy_roguelike_tutorial/systems.rs:139-145 | Two hits on a target without `SufferDamage` queue only the second attacker's damage. |
| DamageResolution.ApplyDamage | bracket-bevy/examples/bevy_roguelike_tutorial/systems.rs:161-163 | An entity with stats and queued damage loses the sum from `hp`, unclamped, and drops the queue. Every other component is kept. Entities without both components are untouched. |
| DamageResolution.DamageSystem | bracket-bevy/examples/bevy_roguelike_tutorial/systems.rs:155-172 | The system does nothing in `AwaitingInput`. Otherwise every entity has its damage applied, no entity with stats keeps `SufferDamage`, and the state takes one transition. |
| DamageResolution.DamageOrderIndependent | bracket-bevy/examples/bevy_roguelike_tutorial/systems.rs:162 | Reordering the queued amounts does not change the result. |
| DamageResolution.TwoAmountsSubtracted | bracket-bevy/examples/bevy_roguelike_tutorial/systems.rs:162 | Two queued amounts `d1, d2` leave `hp - d1 - d2` in either order. |
| Basics.SumPermutation | bracket-bevy/examples/bevy_roguelike_tutorial/systems.rs:162 | Sequences with the same multiset of amounts have the same sum. |
| CorpseCleanup.CorpseCleanupSystem | bracket-bevy/examples/bevy_roguelike_tutorial/systems.rs:174-187 | An entity is despawned exactly when it has stats with `hp < 1` and is not the player. Survivors are unchanged. The map and the state are kept. |
| CorpseCleanup.CleanupKeepsPlayer | bracket-bevy/examples/bevy_roguelike_tutorial/systems.rs:180-181 | The player survives cleanup at any `hp` and stays the only player. |
| CorpseCleanup.CleanupIdempotent | bracket-bevy/examples/bevy_roguelike_tutorial/systems.rs:178-185 | No dead non-player remains, and a second cleanup changes nothing. |
| Schedule.AddStageAfter | bracket-bevy/examples/bevy_roguelike_tutorial/main.rs:49-67 | `add_stage_after` adds exactly one stage, the new one. |
| Schedule.AddStageAfterSpec | bracket-bevy/examples/bevy_roguelike_tutorial/main.rs:49-67 | `add_stage_after` puts the new stage right after the first occurrence of its anchor. The stages before and after it keep their order. |
| Schedule.BuildChained | bracket-bevy/examples/bevy_roguelike_tutorial/main.rs:49-67 | Builder calls that each anchor on the stage added just before append their stages in call order. |
| Schedule.AppStages | bracket-bevy/examples/bevy_roguelike_tutorial/main.rs:49-67 | The seven `add_stage_after` calls of `main`, written out as anchor and new stage, produce Update, monster AI, map indexing, player movement, melee, damage, corpse cleanup and render, in that order. |
| Pipeline.Tick | bracket-bevy/examples/bevy_roguelike_tutorial/main.rs:68-75 | One frame: the system of every stage of the schedule, in order. No contract of its own; `Pipeline.TickStages` and `Pipeline.TickComposition` state what it runs. |
| Pipeline.TickStages | bracket-bevy/examples/bevy_roguelike_tutorial/main.rs:49-75 | A tick runs each stage of the schedule once, in schedule order. |
| Pipeline.TickComposition | bracket-bevy/examples/bevy_roguelike_tutorial/main.rs:68-75 | A tick is visibility, monster AI, map indexing, movement, melee, damage and cleanup applied one after the other. |
| Pipeline.TickAdvancesTurn | bracket-bevy/examples/bevy_roguelike_tutorial/systems.rs:165-170 | With movement keeping the state, one tick performs exactly one transition of the turn machine. |
| Pipeline.AwaitingInputTick | bracket-bevy/examples/bevy_roguelike_tutorial/main.rs:68-75 | In `AwaitingInput` only movement and cleanup act, and the state stays `AwaitingInput`. |
| Pipeline.PlayerTurnSettles | bracket-bevy/examples/bevy_roguelike_tutorial/systems.rs:168-169 | A player turn becomes a monster turn after one tick and `AwaitingInput` after two. |
| Pipeline.TickConsumesIntentsAndDamage | bracket-bevy/examples/bevy_roguelike_tutorial/systems.rs:150-163 | Outside `AwaitingInput`, with every entity in the query order, no entity with name and stats keeps a melee intent after a tick, and no entity with stats keeps queued damage. |
| Pipeline.MeleeThenDamage | bracket-bevy/examples/bevy_roguelike_tutorial/systems.rs:139-163 | After melee then damage, a target that already carried `SufferDamage` loses the earlier amounts and every hit. Otherwise it loses only the last hit of the pass. |
| Setup.Spawn | bracket-bevy/examples/bevy_roguelike_tutorial/main.rs:79-151 | Ids `0 .. n-1` are spawned, one per room. Entity 0 is the only player and stands at the first room's centre. |
| Setup.SpawnedEntities | bracket-bevy/examples/bevy_roguelike_tutorial/main.rs:84-150 | Each entity stands at its room's centre with an empty, dirty viewshed of range 8, a name, stats, and no intent or damage. Exactly the monsters carry `Monster` and `BlocksTile`. |
| Setup.SpawnedStats | bracket-bevy/examples/bevy_roguelike_tutorial/main.rs:88-149 | The player is `@`, "Player", 30/30 hp, defense 2, power 5. A monster is 16/16 hp, defense 1, power 4. It is a goblin `g` named `Goblin #k` on roll 1 and an orc `o` named `Orc #k` otherwise. |
| Setup.NewGame | bracket-bevy/examples/bevy_roguelike_tutorial/main.rs:153-158 | The game starts in `PreRun`, with `PlayerPosition` at the player's position. |
| Setup.MonsterNameInjective | bracket-bevy/examples/bevy_roguelike_tutorial/main.rs:141 | Two monster names are equal only when they carry the same room number. |
| Setup.MonsterNamesDistinct | bracket-bevy/examples/bevy_roguelike_tutorial/main.rs:110-141 | No two monsters get the same name. |
| Setup.SpawnInBounds | bracket-bevy/examples/bevy_roguelike_tutorial/main.rs:81-111 | With room centres on the map, every spawned position is on the map. |
| Numerals.NatToString | bracket-bevy/examples/bevy_roguelike_tutorial/main.rs:141 | The decimal numeral is non-empty, all digits, and has no leading zero. |
| Numerals.ParseNatToString | bracket-bevy/examples/bevy_roguelike_tutorial/main.rs:141 | Parsing the numeral gives the number back. |
| Tutorial5.Clamp | bracket-bevy/examples/bevy_roguelike_tutorial_5/main.rs:66-67 | The result lies in `0..hi`, equals the input inside that range and the nearer end outside it. |
| Tutorial5.PlayerMover | bracket-bevy/examples/bevy_roguelike_tutorial_5/main.rs:62-63 | `single_mut` succeeds exactly when one entity has `Player`, `Position` and `Viewshed`, and it returns that entity. |
| Tutorial5.MovePlayer | bracket-bevy/examples/bevy_roguelike_tutorial_5/main.rs:60-71 | A zero delta changes nothing. A nonzero move without exactly one entity that has `Player`, `Position` and `Viewshed` is the `single_mut` panic (`None`). A move never adds or removes entities. |
| Tutorial5.MoveOutcome | bracket-bevy/examples/bevy_roguelike_tutorial_5/main.rs:60-71 | A nonzero move panics exactly when the destination index is outside the map, and a wall changes nothing. Otherwise only the player changes: it moves to the clamped destination and its viewshed becomes dirty. |
| Tutorial5.MoveInsideIsExact | bracket-bevy/examples/bevy_roguelike_tutorial_5/main.rs:64-67 | On an 80x50 map, a move whose destination is on the map lands exactly there, on a tile that is not a wall, or does not happen. |
| Tutorial5.Visibility5 | bracket-bevy/examples/bevy_roguelike_tutorial_5/visibility_system.rs:11-25 | Chapter 5's `visibility_system` loop. No contract of its own; `Tutorial5.Visibility5Frame` and `Tutorial5.Visibility5Revealed` state its effect. |
| Tutorial5.Visibility5Frame | bracket-bevy/examples/bevy_roguelike_tutorial_5/visibility_system.rs:11-17 | Every entity of the query gets its in-bounds field of view, dirty or not, and keeps its flag. Of the map only `revealed` can change. `visible` is never written. |
| Tutorial5.Visibility5Revealed | bracket-bevy/examples/bevy_roguelike_tutorial_5/visibility_system.rs:19-24 | `revealed` gains exactly the sole player's tiles when the query visits the player, and is unchanged otherwise. |
| Tutorial5.Tick5 | bracket-bevy/examples/bevy_roguelike_tutorial_5/main.rs:48-78 | The tick fails exactly when its movement step does. |
| Tutorial5.Tick5RevealsView | bracket-bevy/examples/bevy_roguelike_tutorial_5/main.rs:60-72 | After a tick, the player's viewshed is the field of view from where the player now stands. Every tile of it is revealed, and nothing revealed before is lost. |
| Tutorial5.Setup5 | bracket-bevy/examples/bevy_roguelike_tutorial_5/main.rs:25-46 | Only the player is spawned: at the first room's centre, as `@`, with an empty dirty viewshed of range 8, and no name or stats. |

## Left out

- Rendering is not modelled: `render_system`, `draw_map`, `draw_ui`, `ctx.set` and the gui module. Rendering only reads the world, and the `Render` stage is the identity.
- `println!` output ("shouts insults", "hits", "You are dead") is not modelled, because it is I/O only.
- The internals of `field_of_view` and `a_star_search` (bracket-pathfinding) are not modelled. They are parameters: `FieldOfView` receives the origin and range, and `Pathfinder` receives the two indices and the `blocked` layer.
- Map generation (`Map::new_map_rooms_and_corridors`), `Rect::center` and `xy_idx` live in map.rs and rect.rs, which are not part of this model. Room centres are an input of `Setup.NewGame`. `xy_idx` is modelled as `y * width + x` on unbounded integers.
- `player_movement_system` and `player_input` are not part of this model: player.rs does not contain the movement system. In the complete tutorial, movement is the parameter `Env.movement`. The lemmas about a tick assume only that it keeps the turn state and the set of entities (`Pipeline.MovementKeepsTurn`).
- The random number generator is not modelled; its rolls are an input.
- Bevy's archetype iteration order is not modelled; every query takes its order as an explicit sequence of ids.
- Every stage of a tick filters the same order (`Pipeline.Env.order`). In Bevy, inserting or removing `WantsToMelee` or `SufferDamage` moves an entity to another archetype, so the order can differ from one stage to the next. Which attacker counts as the "last" hit in `Melee.SecondInsertOverwritesFirst` depends on the order of the melee query alone.
- The startup stage runs `setup` once before any tick. It is modelled as the separate function `Setup.NewGame`.
- `Tutorial5.MovePlayer`: the destination index is `y * width + x` on unbounded integers. In the source, a negative coordinate is cast to `usize`, which wraps; the model treats every index outside the map as the panic it usually leads to (`None`).
- Out-of-range layer writes (`SetAt`, `AppendAt`) panic in Rust; in the model they write nothing, so the stage pipeline composes without preconditions. With every position and path step on the map these writes cannot happen. The visibility pass writes only points kept by `Visibility.KeepInBounds`, so it never reaches one. Map indexing and the monster AI can. Every contract and lemma about them, or about a whole tick, that does not require `World.PositionsInBounds` or `World.PathsInRange` also covers states where the source panics, and there it describes the no-op write. Only `MapIndexing.ContentListsPositionedEntities`, `MonsterAi.AiPassOutcomes` and `MonsterAi.AiKeepsPositionsInBounds` carry those requirements. The rest include `MapIndexing.IndexEntitiesSpec`, `MapIndexing.OccupantsMembership`, `MapIndexing.IndexEntitiesIgnoresOldIndex`, `MapIndexing.IndexingIdempotent`, `MonsterAi.StepToward`, `MonsterAi.Visit`, `MonsterAi.AiPassFrame`, `MonsterAi.AiPassPrefix`, `MonsterAi.AiStepsMonster`, `MonsterAi.AiAttackEndsPass`, `MonsterAi.AiNoAttackNoIntent` and the `Pipeline` lemmas. For example, an entity with `BlocksTile` whose `xy_idx` falls outside the layers is listed on no tile and blocks none, where `map_indexing_system` panics at that index.
- `map.rooms[0]` in both `setup` functions panics when map generation makes no room. `Setup.Spawn`, `Setup.NewGame` and `Tutorial5.Setup5` require at least one room centre and say nothing about that panic.
- `populate_blocked` and `clear_content_index` live in map.rs. They are assumed to set `blocked` to the wall layer and to empty every occupant list (`GridMaps.PopulateBlocked`, `GridMaps.ClearedContent`).
- Bevy's core stages other than `Update` (`First`, `PreUpdate`, `PostUpdate`, `Last`) run no system of the game and are left out of the stage list. Bevy panics on `add_stage_after` with a missing anchor; `Schedule.AddStageAfter` requires the anchor, and `Schedule.Build` stops at a call without one, which the calls of `main` never reach.
- `MonsterAi.Visit`: "stays inside the map" is stated only for a pathfinder whose steps are tile indices (`World.PathsInRange`), because `a_star_search` is not modelled.
- `MonsterAi.AiPassOutcomes`: the same assumption on the pathfinder. Its "unchanged" case also covers a monster whose path is usable but which comes after an attacker; `MonsterAi.AiStepsMonster` states when such a monster moves.
- `Setup.Spawn`: the roll may be any integer, not only the 1 or 2 that `rng.range(1, 3)` returns; roll 1 is a goblin and every other value an orc, as the `match` has it.
- i32 arithmetic: `hp`, `power`, `defense` and coordinates are unbounded integers. The source's values (at most 30 hp, power 5) are far from overflow.
- `PlayerPosition` is read by the monster AI but only updated by the player movement system, which is not part of this model.
- The panic of `player_query.single()` in `monster_ai_system`, when there is not exactly one player, is not modelled. The player entity is a parameter of the pass (`Env.player` in a tick).

=== FILE: basics.dfy ===
/**
 * Shared building blocks: `Option`, for the components an entity may or may
 * not carry, and the sequence helpers the systems use (`Last`, `Distinct` for
 * query orders, and `Sum` of damage amounts with its permutation lemma).
 */
module Basics {

  datatype Option<+T> = None | Some(value: T)

  /** Last element of a non-empty sequence. */
  function Last<T>(s: seq<T>): (r: T)
    requires |s| > 0
    ensures r in s
  {
    s[|s| - 1]
  }

  /** The elements of `s` are pairwise distinct. */
  predicate Distinct<T(==)>(s: seq<T>) {
    forall i, j :: 0 <= i < j < |s| ==> s[i] != s[j]
  }

  /** Sum of a sequence of integers, folded from the front like `iter().sum()`. */
  function Sum(s: seq<int>): int {
    if s == [] then 0 else s[0] + Sum(s[1..])
  }

  lemma {:induction false} SumAppend(a: seq<int>, b: seq<int>)
    ensures Sum(a + b) == Sum(a) + Sum(b)
  {
    if a == [] {
      assert a + b == b;
    } else {
      assert (a + b)[1..] == a[1..] + b;
      SumAppend(a[1..], b);
    }
  }

  /** Removing one occurrence from the middle takes exactly that summand off. */
  lemma SumRemove(b: seq<int>, k: int)
    requires 0 <= k < |b|
    ensures Sum(b) == b[k] + Sum(b[..k] + b[k + 1..])
  {
    assert b == b[..k] + ([b[k]] + b[k + 1..]);
    SumAppend(b[..k], [b[k]] + b[k + 1..]);
    SumAppend([b[k]], b[k + 1..]);
    SumAppend(b[..k], b[k + 1..]);
  }

  lemma MultisetRemove(b: seq<int>, k: int)
    requires 0 <= k < |b|
    ensures multiset(b[..k] + b[k + 1..]) == multiset(b) - multiset{b[k]}
  {
    assert b == b[..k] + [b[k]] + b[k + 1..];
  }

  /** The sum does not depend on the order of the summands. */
  lemma {:induction false} SumPermutation(a: seq<int>, b: seq<int>)
    requires multiset(a) == multiset(b)
    ensures Sum(a) == Sum(b)
    decreases |a|
  {
    if a == [] {
      assert |b| == |multiset(b)| == 0;
    } else {
      assert a[0] in multiset(b) by {
        assert a[0] in multiset(a);
      }
      var k :| 0 <= k < |b| && b[k] == a[0];
      var rest := b[..k] + b[k + 1..];
      MultisetRemove(b, k);
      assert a == [a[0]] + a[1..];
      assert multiset(a[1..]) == multiset(a) - multiset{a[0]};
      SumPermutation(a[1..], rest);
      SumRemove(b, k);
    }
  }
}

=== FILE: components.dfy ===
/**
 * The ECS components of the roguelike tutorial and the entity store they live in.
 * An entity is one record holding every component as an optional field; the
 * marker components (`Player`, `Monster`, `BlocksTile`) are booleans. The store
 * maps stable entity identifiers to these records.
 */
module Components {
  import opened Basics

  /** Stable entity identifier (Bevy's `Entity`). */
  type Id = nat

  /** A grid point; both `Position` and the `Point`s of a viewshed. */
  datatype Point = Point(x: int, y: int)

  /** `Viewshed`: the tiles last computed as visible, the sight radius, and the recompute flag. */
  datatype Viewshed = Viewshed(visibleTiles: seq<Point>, range: int, dirty: bool)

  /** `CombatStats`; `hp` may drop below zero until corpse cleanup. */
  datatype CombatStats = CombatStats(maxHp: int, hp: int, defense: int, power: int)

  /** One entity with all of the components it may carry. `glyph` is the only part of `Renderable` kept. */
  datatype Entity = Entity(
    position: Option<Point>,
    glyph: Option<char>,
    viewshed: Option<Viewshed>,
    name: Option<string>,
    stats: Option<CombatStats>,
    wantsToMelee: Option<Id>,
    sufferDamage: Option<seq<int>>,
    player: bool,
    monster: bool,
    blocksTile: bool)

  /** An entity with no components at all (`commands.spawn_empty()`). */
  const Empty := Entity(None, None, None, None, None, None, None, false, false, false)

  type Store = map<Id, Entity>

  /** `order` visits every entity of the store exactly once: the iteration of one query pass. */
  predicate Enumerates(order: seq<Id>, store: Store) {
    && Distinct(order)
    && (forall i :: 0 <= i < |order| ==> order[i] in store)
    && (forall id :: id in store ==> id in order)
  }

  /** `p` is the only entity carrying the `Player` marker (`Query<_, With<Player>>::single()`). */
  predicate SolePlayer(store: Store, p: Id) {
    && p in store
    && store[p].player
    && forall id :: id in store && store[id].player ==> id == p
  }
}

=== FILE: corpse.dfy ===
/**
 * `corpse_cleanup_system` (systems.rs): every entity with `CombatStats` and
 * `hp < 1` is despawned unless it is the player, whose death is only reported.
 * The system is not gated on the turn state.
 */
module CorpseCleanup {
  import opened Components
  import opened World

  /** A dead non-player: the entities the system despawns. */
  predicate IsCorpse(e: Entity) {
    e.stats.Some? && e.stats.value.hp < 1 && !e.player
  }

  function CorpseCleanupSystem(g: Game): (r: Game)
    ensures r.grid == g.grid && r.state == g.state && r.playerPos == g.playerPos
    ensures r.ents.Keys <= g.ents.Keys
    ensures forall id :: id in r.ents ==> r.ents[id] == g.ents[id]
    ensures forall id :: id in g.ents ==> (id !in r.ents <==>
      !g.ents[id].player && g.ents[id].stats.Some? && g.ents[id].stats.value.hp < 1)
  {
    g.(ents := map id | id in g.ents && !IsCorpse(g.ents[id]) :: g.ents[id])
  }

  /** The player survives cleanup whatever its hit points, and stays the only player. */
  lemma CleanupKeepsPlayer(g: Game, p: Id)
    requires SolePlayer(g.ents, p)
    ensures SolePlayer(CorpseCleanupSystem(g).ents, p)
  {
  }

  /** Cleanup leaves no dead non-player behind, and running it again changes nothing. */
  lemma CleanupIdempotent(g: Game)
    ensures forall id :: id in CorpseCleanupSystem(g).ents ==> !IsCorpse(CorpseCleanupSystem(g).ents[id])
    ensures CorpseCleanupSystem(CorpseCleanupSystem(g)) == CorpseCleanupSystem(g)
  {
  }
}

=== FILE: damage.dfy ===
/**
 * `damage_system` (systems.rs): outside `AwaitingInput`, every entity with
 * `CombatStats` and `SufferDamage` loses the sum of the queued amounts from
 * `hp` (no clamping) and drops `SufferDamage`; then the turn state advances.
 */
module DamageResolution {
  import opened Basics
  import opened Components
  import opened RunStates
  import opened World

  /** The entity matches `(Entity, &mut CombatStats, &SufferDamage)`. */
  predicate Suffers(e: Entity) {
    e.stats.Some? && e.sufferDamage.Some?
  }

  /** One entity after the pass. */
  function ApplyDamage(e: Entity): (r: Entity)
    ensures Suffers(e) ==> r.stats.Some? && r.stats.value.hp == e.stats.value.hp - Sum(e.sufferDamage.value)
    ensures Suffers(e) ==> r.stats.value.(hp := e.stats.value.hp) == e.stats.value && r.sufferDamage.None?
    ensures Suffers(e) ==> r.(stats := e.stats, sufferDamage := e.sufferDamage) == e
    ensures !Suffers(e) ==> r == e
  {
    if Suffers(e) then
      var st := e.stats.value;
      e.(stats := Some(st.(hp := st.hp - Sum(e.sufferDamage.value))), sufferDamage := None)
    else e
  }

  function DamageSystem(g: Game): (r: Game)
    ensures g.state == AwaitingInput ==> r == g
    ensures r.grid == g.grid && r.playerPos == g.playerPos && r.ents.Keys == g.ents.Keys
    ensures g.state != AwaitingInput ==>
      && r.state == NextState(g.state)
      && forall id :: id in g.ents ==> r.ents[id] == ApplyDamage(g.ents[id])
    ensures g.state != AwaitingInput ==>
      forall id :: id in r.ents && r.ents[id].stats.Some? ==> r.ents[id].sufferDamage.None?
  {
    if g.state == AwaitingInput then g
    else g.(ents := map id | id in g.ents :: ApplyDamage(g.ents[id]), state := NextState(g.state))
  }

  /**
   * The damage taken does not depend on the order in which the amounts were
   * queued: two entities that differ only by a reordering of their queued
   * amounts end up identical.
   */
  lemma DamageOrderIndependent(e: Entity, e': Entity)
    requires e.stats.Some? && e.sufferDamage.Some? && e'.sufferDamage.Some?
    requires e'.(sufferDamage := e.sufferDamage) == e
    requires multiset(e.sufferDamage.value) == multiset(e'.sufferDamage.value)
    ensures ApplyDamage(e) == ApplyDamage(e')
  {
    SumPermutation(e.sufferDamage.value, e'.sufferDamage.value);
  }

  /** Two queued amounts `d1, d2` take `hp` to `hp - d1 - d2`, whichever was queued first. */
  lemma TwoAmountsSubtracted(e: Entity, d1: int, d2: int)
    requires e.stats.Some?
    ensures ApplyDamage(e.(sufferDamage := Some([d1, d2]))).stats.value.hp == e.stats.value.hp - d1 - d2
    ensures ApplyDamage(e.(sufferDamage := Some([d2, d1]))) == ApplyDamage(e.(sufferDamage := Some([d1, d2])))
  {
    assert [d1, d2][1..] == [d2];
    assert [d2][1..] == [];
    assert [d2, d1][1..] == [d1];
    assert [d1][1..] == [];
    assert Sum([d2]) == d2 && Sum([d1]) == d1;
    assert Sum([d1, d2]) == d1 + d2 == Sum([d2, d1]);
  }
}

=== FILE: grid_map.dfy ===
/**
 * The `Map` resource: a `width` by `height` grid of tiles with the derived
 * per-tile layers `blocked`, `visible_tiles`, `revealed_tiles` and
 * `tile_content`, all indexed by `xy_idx(x, y) = y * width + x`.
 * Map generation, `populate_blocked` and `clear_content_index` live in map.rs,
 * which is not part of this model; the last two are assumed to set `blocked`
 * to the wall layer and to empty every occupant list.
 */
module GridMaps {
  import opened Components

  datatype TileType = Wall | Floor

  /** The grid's extent; the index arithmetic depends on nothing else. */
  datatype Dims = Dims(width: int, height: int)

  datatype Map = Map(
    dims: Dims,
    tiles: seq<TileType>,
    blocked: seq<bool>,
    visible: seq<bool>,
    revealed: seq<bool>,
    content: seq<seq<Id>>)
  {
    /** Every layer has exactly one entry per tile. */
    predicate Valid() {
      && dims.width > 0
      && dims.height > 0
      && |tiles| == dims.width * dims.height
      && |blocked| == |tiles|
      && |visible| == |tiles|
      && |revealed| == |tiles|
      && |content| == |tiles|
    }
  }

  type GridMap = m: Map | m.Valid() witness Map(Dims(1, 1), [Wall], [false], [false], [false], [[]])

  predicate InBounds(d: Dims, p: Point) {
    0 <= p.x < d.width && 0 <= p.y < d.height
  }

  /** `xy_idx`. */
  function Idx(d: Dims, p: Point): int {
    p.y * d.width + p.x
  }

  /** The tile at index `i`, as the monster AI decodes a path step: `(i % width, i / width)`. */
  function PointOf(m: GridMap, i: int): Point {
    Point(i % m.dims.width, i / m.dims.width)
  }

  lemma MulLeq(a: int, b: int, c: int)
    requires 0 <= a <= b && 0 <= c
    ensures a * c <= b * c
  {
  }

  /** A point inside the map has an index inside every layer. */
  lemma IdxInRange(m: GridMap, p: Point)
    requires InBounds(m.dims, p)
    ensures 0 <= Idx(m.dims, p) < |m.tiles|
  {
    MulLeq(p.y + 1, m.dims.height, m.dims.width);
    MulLeq(0, p.y, m.dims.width);
  }

  /** Distinct in-bounds points have distinct indices. */
  lemma IdxInjective(m: GridMap, p: Point, q: Point)
    requires InBounds(m.dims, p) && InBounds(m.dims, q)
    requires Idx(m.dims, p) == Idx(m.dims, q)
    ensures p == q
  {
    if p.y < q.y {
      MulLeq(p.y + 1, q.y, m.dims.width);
      assert false;
    } else if q.y < p.y {
      MulLeq(q.y + 1, p.y, m.dims.width);
      assert false;
    }
  }

  /** Decoding an index and encoding it again is the identity, and lands inside the map. */
  lemma PointOfIdx(m: GridMap, i: int)
    requires 0 <= i < |m.tiles|
    ensures InBounds(m.dims, PointOf(m, i))
    ensures Idx(m.dims, PointOf(m, i)) == i
  {
    var q, r := i / m.dims.width, i % m.dims.width;
    assert i == q * m.dims.width + r;
    if q >= m.dims.height {
      MulLeq(m.dims.height, q, m.dims.width);
      assert false;
    }
  }

  /** Writes `v` at index `i`; an index outside the layer (a panic in the source) writes nothing. */
  function SetAt<T>(layer: seq<T>, i: int, v: T): (r: seq<T>)
    ensures |r| == |layer|
    ensures forall j :: 0 <= j < |r| ==> r[j] == (if j == i then v else layer[j])
  {
    if 0 <= i < |layer| then layer[i := v] else layer
  }

  /** Sets the entry of every in-bounds point of `pts` to true, one point after the other. */
  function MarkAll(d: Dims, layer: seq<bool>, pts: seq<Point>): (r: seq<bool>)
    ensures |r| == |layer|
    decreases |pts|
  {
    if pts == [] then layer
    else MarkAll(d, SetAt(layer, Idx(d, pts[0]), true), pts[1..])
  }

  /** Index `i` is the index of some in-bounds point of `pts`. */
  predicate Covers(d: Dims, pts: seq<Point>, i: int) {
    exists p :: p in pts && InBounds(d, p) && Idx(d, p) == i
  }

  /** After marking, an entry is true exactly when it was already true or some point of `pts` lies on it. */
  lemma {:induction false} MarkAllSpec(m: GridMap, layer: seq<bool>, pts: seq<Point>)
    requires |layer| == |m.tiles|
    requires forall p :: p in pts ==> InBounds(m.dims, p)
    ensures forall i :: 0 <= i < |layer| ==>
      (MarkAll(m.dims, layer, pts)[i] <==> layer[i] || Covers(m.dims, pts, i))
    decreases |pts|
  {
    if pts != [] {
      var p := pts[0];
      IdxInRange(m, p);
      var next := SetAt(layer, Idx(m.dims, p), true);
      MarkAllSpec(m, next, pts[1..]);
      forall i | 0 <= i < |layer|
        ensures MarkAll(m.dims, layer, pts)[i] <==> layer[i] || Covers(m.dims, pts, i)
      {
        if Covers(m.dims, pts, i) && !layer[i] && i != Idx(m.dims, p) {
          var q :| q in pts && InBounds(m.dims, q) && Idx(m.dims, q) == i;
          assert q in pts[1..] by {
            assert pts == [p] + pts[1..];
          }
        }
        if Covers(m.dims, pts[1..], i) {
          var q :| q in pts[1..] && InBounds(m.dims, q) && Idx(m.dims, q) == i;
          assert q in pts;
        }
      }
    }
  }

  /** Marking never clears an entry. */
  lemma MarkAllMonotone(m: GridMap, layer: seq<bool>, pts: seq<Point>)
    requires |layer| == |m.tiles|
    requires forall p :: p in pts ==> InBounds(m.dims, p)
    ensures forall i :: 0 <= i < |layer| && layer[i] ==> MarkAll(m.dims, layer, pts)[i]
  {
    MarkAllSpec(m, layer, pts);
  }

  /** The layer with every entry false (the reset of `visible_tiles`). */
  function AllFalse(m: GridMap): (r: seq<bool>)
    ensures |r| == |m.tiles|
    ensures forall i :: 0 <= i < |r| ==> !r[i]
  {
    seq(|m.tiles|, i => false)
  }

  /** `populate_blocked`, assumed to block exactly the walls. */
  function PopulateBlocked(m: GridMap): (r: seq<bool>)
    ensures |r| == |m.tiles|
    ensures forall i :: 0 <= i < |r| ==> (r[i] <==> m.tiles[i] == Wall)
  {
    seq(|m.tiles|, i requires 0 <= i < |m.tiles| => m.tiles[i] == Wall)
  }

  /** `clear_content_index`, assumed to empty every occupant list. */
  function ClearedContent(m: GridMap): (r: seq<seq<Id>>)
    ensures |r| == |m.tiles|
    ensures forall i :: 0 <= i < |r| ==> r[i] == []
  {
    seq(|m.tiles|, i => [])
  }
}

=== FILE: map_indexing.dfy ===
/**
 * `map_indexing_system` (systems.rs): outside `AwaitingInput`, the `blocked`
 * layer is reset to the walls and the occupant lists are emptied, then every
 * entity with a position is appended to its tile's list and, if it carries
 * `BlocksTile`, blocks that tile.
 */
module MapIndexing {
  import opened Basics
  import opened Components
  import opened GridMaps
  import opened RunStates
  import opened World

  /** Appends `id` to the list at index `i`; an index outside the layer writes nothing. */
  function AppendAt(layer: seq<seq<Id>>, i: int, id: Id): (r: seq<seq<Id>>)
    ensures |r| == |layer|
    ensures forall j :: 0 <= j < |r| ==> r[j] == (if j == i then layer[j] + [id] else layer[j])
  {
    if 0 <= i < |layer| then layer[i := layer[i] + [id]] else layer
  }

  /** Entity `id` has a position whose index is `i`. */
  predicate StandsOn(d: Dims, s: Store, id: Id, i: int) {
    id in s && s[id].position.Some? && Idx(d, s[id].position.value) == i
  }

  /** The loop over `order`, run after the reset; the last entity of `order` is visited last. */
  function IndexEntities(m: GridMap, s: Store, order: seq<Id>): (r: GridMap)
    ensures r.dims == m.dims && r.tiles == m.tiles && r.visible == m.visible && r.revealed == m.revealed
    decreases |order|
  {
    if order == [] then m.(blocked := PopulateBlocked(m), content := ClearedContent(m))
    else
      var r := IndexEntities(m, s, order[..|order| - 1]);
      var id := Last(order);
      if id in s && s[id].position.Some? then
        var i := Idx(m.dims, s[id].position.value);
        r.(blocked := if s[id].blocksTile then SetAt(r.blocked, i, true) else r.blocked,
           content := AppendAt(r.content, i, id))
      else r
  }

  function MapIndexingSystem(g: Game, order: seq<Id>): (r: Game)
    ensures g.state == AwaitingInput ==> r == g
    ensures r.ents == g.ents && r.state == g.state && r.playerPos == g.playerPos
    ensures r.grid.dims == g.grid.dims && r.grid.tiles == g.grid.tiles
    ensures r.grid.visible == g.grid.visible && r.grid.revealed == g.grid.revealed
  {
    if g.state == AwaitingInput then g
    else g.(grid := IndexEntities(g.grid, g.ents, order))
  }

  /** Reference definition of a tile's occupants: the entities of `order` standing on it, in order. */
  function Occupants(d: Dims, s: Store, order: seq<Id>, i: int): seq<Id>
    decreases |order|
  {
    if order == [] then []
    else Occupants(d, s, order[..|order| - 1], i) + (if StandsOn(d, s, Last(order), i) then [Last(order)] else [])
  }

  lemma {:induction false} OccupantsMembership(d: Dims, s: Store, order: seq<Id>, i: int, id: Id)
    ensures id in Occupants(d, s, order, i) <==> id in order && StandsOn(d, s, id, i)
    decreases |order|
  {
    if order != [] {
      OccupantsMembership(d, s, order[..|order| - 1], i, id);
      assert order == order[..|order| - 1] + [Last(order)];
    }
  }

  /** Some blocking entity of `order` stands on tile `i`. */
  predicate BlockerOn(d: Dims, s: Store, order: seq<Id>, i: int) {
    exists j :: 0 <= j < |order| && StandsOn(d, s, order[j], i) && s[order[j]].blocksTile
  }

  /**
   * After indexing, tile `i` is blocked exactly when it is a wall or a blocking
   * entity stands on it, and its occupant list is exactly the entities of the
   * pass standing on it, in iteration order.
   */
  lemma {:induction false} IndexEntitiesSpec(m: GridMap, s: Store, order: seq<Id>)
    ensures var r := IndexEntities(m, s, order);
      forall i :: 0 <= i < |m.tiles| ==>
        && (r.blocked[i] <==> m.tiles[i] == Wall || BlockerOn(m.dims, s, order, i))
        && r.content[i] == Occupants(m.dims, s, order, i)
    decreases |order|
  {
    if order != [] {
      var front := order[..|order| - 1];
      IndexEntitiesSpec(m, s, front);
      var id := Last(order);
      forall i | 0 <= i < |m.tiles|
        ensures BlockerOn(m.dims, s, order, i) <==>
          BlockerOn(m.dims, s, front, i) || (StandsOn(m.dims, s, id, i) && s[id].blocksTile)
      {
        if BlockerOn(m.dims, s, order, i) {
          var j :| 0 <= j < |order| && StandsOn(m.dims, s, order[j], i) && s[order[j]].blocksTile;
          if j < |order| - 1 {
            assert front[j] == order[j];
          }
        }
        if BlockerOn(m.dims, s, front, i) {
          var j :| 0 <= j < |front| && StandsOn(m.dims, s, front[j], i) && s[front[j]].blocksTile;
          assert order[j] == front[j];
        }
        if StandsOn(m.dims, s, id, i) && s[id].blocksTile {
          assert order[|order| - 1] == id;
        }
      }
    }
  }

  /** With every position on the map, entity `id` is listed on tile `i` exactly when it stands on the point of that tile. */
  lemma ContentListsPositionedEntities(g: Game, order: seq<Id>, id: Id, i: int)
    requires g.state != AwaitingInput
    requires Enumerates(order, g.ents)
    requires PositionsInBounds(g.grid.dims, g.ents)
    requires 0 <= i < |g.grid.tiles|
    ensures id in MapIndexingSystem(g, order).grid.content[i] <==>
      id in g.ents && g.ents[id].position == Some(PointOf(g.grid, i))
  {
    var m := g.grid;
    IndexEntitiesSpec(m, g.ents, order);
    OccupantsMembership(m.dims, g.ents, order, i, id);
    PointOfIdx(m, i);
    if id in g.ents && g.ents[id].position.Some? && Idx(m.dims, g.ents[id].position.value) == i {
      IdxInjective(m, g.ents[id].position.value, PointOf(m, i));
    }
  }

  /** Indexing reads nothing of the old `blocked` and `content` layers. */
  lemma {:induction false} IndexEntitiesIgnoresOldIndex(m: GridMap, m': GridMap, s: Store, order: seq<Id>)
    requires m'.dims == m.dims && m'.tiles == m.tiles && m'.visible == m.visible && m'.revealed == m.revealed
    ensures IndexEntities(m', s, order) == IndexEntities(m, s, order)
    decreases |order|
  {
    if order != [] {
      IndexEntitiesIgnoresOldIndex(m, m', s, order[..|order| - 1]);
    } else {
      assert m'.(blocked := PopulateBlocked(m'), content := ClearedContent(m'))
          == m.(blocked := PopulateBlocked(m), content := ClearedContent(m));
    }
  }

  /** Running the indexer twice with no movement in between gives the same layers as running it once. */
  lemma IndexingIdempotent(g: Game, order: seq<Id>)
    ensures MapIndexingSystem(MapIndexingSystem(g, order), order) == MapIndexingSystem(g, order)
  {
    if g.state != AwaitingInput {
      IndexEntitiesIgnoresOldIndex(g.grid, IndexEntities(g.grid, g.ents, order), g.ents, order);
    }
  }
}

=== FILE: melee.dfy ===
/**
 * `melee_combat_system` (systems.rs). Outside `AwaitingInput`, every entity
 * with `WantsToMelee`, `Name` and `CombatStats` resolves its attack: when the
 * attacker is alive and the target exists, is alive and takes nonzero damage,
 * the damage is pushed onto the target's `SufferDamage`. A target that already
 * has `SufferDamage` gets the push at once; a target without it gets a
 * deferred `insert`, and the intent is removed by a deferred command in every
 * case. Deferred commands are applied in issue order after the pass, so of
 * several inserts for the same target only the last survives.
 */
module Melee {
  import opened Basics
  import opened Components
  import opened RunStates
  import opened World

  /** An entry of Bevy's `Commands` queue as this system issues them. */
  datatype Command = InsertSufferDamage(target: Id, amounts: seq<int>) | RemoveWantsToMelee(entity: Id)

  /** Applies one command; a command for an entity that is gone does nothing. */
  function ApplyCommand(s: Store, c: Command): Store {
    match c
    case InsertSufferDamage(t, amounts) =>
      if t in s then s[t := s[t].(sufferDamage := Some(amounts))] else s
    case RemoveWantsToMelee(e) =>
      if e in s then s[e := s[e].(wantsToMelee := None)] else s
  }

  /** Applies the queue in issue order (the last command is applied last). */
  function ApplyCommands(s: Store, cmds: seq<Command>): Store
    decreases |cmds|
  {
    if cmds == [] then s else ApplyCommand(ApplyCommands(s, cmds[..|cmds| - 1]), Last(cmds))
  }

  /** The amounts of the last `SufferDamage` insert queued for `t`, if any. */
  function LastInsert(cmds: seq<Command>, t: Id): Option<seq<int>>
    decreases |cmds|
  {
    if cmds == [] then None
    else if Last(cmds).InsertSufferDamage? && Last(cmds).target == t then Some(Last(cmds).amounts)
    else LastInsert(cmds[..|cmds| - 1], t)
  }

  /**
   * Applying the queue gives every entity the amounts of the last insert for
   * it and drops its intent if any removal names it; nothing else changes.
   */
  lemma {:induction false} ApplyCommandsSpec(s: Store, cmds: seq<Command>)
    ensures ApplyCommands(s, cmds).Keys == s.Keys
    ensures forall id :: id in s ==>
      ApplyCommands(s, cmds)[id] == s[id].(
        sufferDamage := if LastInsert(cmds, id).Some? then LastInsert(cmds, id) else s[id].sufferDamage,
        wantsToMelee := if RemoveWantsToMelee(id) in cmds then None else s[id].wantsToMelee)
    decreases |cmds|
  {
    if cmds != [] {
      var front := cmds[..|cmds| - 1];
      ApplyCommandsSpec(s, front);
      assert cmds == front + [Last(cmds)];
      forall id | id in s
        ensures RemoveWantsToMelee(id) in cmds <==> RemoveWantsToMelee(id) in front || Last(cmds) == RemoveWantsToMelee(id)
      {
      }
    }
  }

  lemma {:induction false} LastInsertAppend(a: seq<Command>, b: seq<Command>, t: Id)
    ensures LastInsert(a + b, t) == if LastInsert(b, t).Some? then LastInsert(b, t) else LastInsert(a, t)
    decreases |b|
  {
    if b == [] {
      assert a + b == a;
    } else {
      var bf := b[..|b| - 1];
      assert (a + b)[..|a + b| - 1] == a + bf;
      assert Last(a + b) == Last(b);
      LastInsertAppend(a, bf, t);
    }
  }

  /** `i32::max(0, power - defense)`. */
  function Damage(power: int, defense: int): (r: int)
    ensures r >= 0 && r >= power - defense
    ensures r == 0 || r == power - defense
  {
    if power - defense > 0 then power - defense else 0
  }

  /** The entity matches `(Entity, &WantsToMelee, &Name, &CombatStats)`. */
  predicate IsAttacker(e: Entity) {
    e.wantsToMelee.Some? && e.name.Some? && e.stats.Some?
  }

  /** `targets_query.get_mut(t)` succeeds: `t` exists with `Name` and `CombatStats`. */
  predicate IsTarget(s: Store, t: Id) {
    t in s && s[t].name.Some? && s[t].stats.Some?
  }

  /** The attack of `id` lands on `t`: attacker alive, target found and alive, nonzero damage. */
  predicate Lands(s: Store, id: Id, t: Id) {
    && id in s && IsAttacker(s[id])
    && s[id].wantsToMelee.value == t
    && s[id].stats.value.hp > 0
    && IsTarget(s, t) && s[t].stats.value.hp > 0
    && Damage(s[id].stats.value.power, s[t].stats.value.defense) != 0
  }

  function DamageBy(s: Store, id: Id, t: Id): int
    requires Lands(s, id, t)
  {
    Damage(s[id].stats.value.power, s[t].stats.value.defense)
  }

  /** One iteration of the attackers loop on the live store: immediate pushes change it, the rest is queued. */
  function AttackOne(live: Store, id: Id): (Store, seq<Command>) {
    if id in live && IsAttacker(live[id]) then
      var t := live[id].wantsToMelee.value;
      if Lands(live, id, t) then
        var d := DamageBy(live, id, t);
        if live[t].sufferDamage.Some? then
          (live[t := live[t].(sufferDamage := Some(live[t].sufferDamage.value + [d]))], [RemoveWantsToMelee(id)])
        else
          (live, [InsertSufferDamage(t, [d]), RemoveWantsToMelee(id)])
      else (live, [RemoveWantsToMelee(id)])
    else (live, [])
  }

  /** The loop over `order`: the live store after the pass and the queued commands. */
  function MeleePass(s: Store, order: seq<Id>): (Store, seq<Command>)
    decreases |order|
  {
    if order == [] then (s, [])
    else
      var (live, cmds) := MeleePass(s, order[..|order| - 1]);
      var (live', more) := AttackOne(live, Last(order));
      (live', cmds + more)
  }

  function MeleeCombatSystem(g: Game, order: seq<Id>): (r: Game)
    ensures g.state == AwaitingInput ==> r == g
    ensures r.grid == g.grid && r.state == g.state && r.playerPos == g.playerPos && r.ents.Keys == g.ents.Keys
  {
    if g.state == AwaitingInput then g
    else
      MeleePassAgree(g.ents, order);
      var (live, cmds) := MeleePass(g.ents, order);
      ApplyCommandsSpec(live, cmds);
      g.(ents := ApplyCommands(live, cmds))
  }

  /** Reference definition: the damage amounts landing on `t` during the pass, in attack order. */
  function HitsOn(s: Store, order: seq<Id>, t: Id): (r: seq<int>)
    ensures forall k :: 0 <= k < |r| ==> r[k] > 0
    decreases |order|
  {
    if order == [] then []
    else HitsOn(s, order[..|order| - 1], t) + (if Lands(s, Last(order), t) then [DamageBy(s, Last(order), t)] else [])
  }

  /** `a` and `b` differ at most in the contents (not the presence) of `SufferDamage`. */
  predicate AgreeButDamage(a: Store, b: Store) {
    && a.Keys == b.Keys
    && forall id :: id in a ==>
         && a[id].(sufferDamage := None) == b[id].(sufferDamage := None)
         && a[id].sufferDamage.Some? == b[id].sufferDamage.Some?
  }

  lemma LandsAgree(a: Store, b: Store, id: Id, t: Id)
    requires AgreeButDamage(a, b)
    ensures Lands(a, id, t) <==> Lands(b, id, t)
    ensures Lands(a, id, t) ==> DamageBy(a, id, t) == DamageBy(b, id, t)
  {
    if id in a {
      assert a[id].(sufferDamage := None) == b[id].(sufferDamage := None);
    }
    if t in a {
      assert a[t].(sufferDamage := None) == b[t].(sufferDamage := None);
    }
  }

  /** One attack appends its damage to a target's existing `SufferDamage` and leaves every other amount list alone. */
  lemma AttackOnePush(live: Store, s: Store, id: Id, t: Id)
    requires AgreeButDamage(live, s) && t in s
    ensures t in AttackOne(live, id).0
    ensures AttackOne(live, id).0[t].sufferDamage ==
      if Lands(s, id, t) && live[t].sufferDamage.Some?
      then Some(live[t].sufferDamage.value + [DamageBy(s, id, t)])
      else live[t].sufferDamage
  {
    LandsAgree(live, s, id, t);
    if id in live && IsAttacker(live[id]) {
      assert live[id].(sufferDamage := None) == s[id].(sufferDamage := None);
      var tt := live[id].wantsToMelee.value;
      LandsAgree(live, s, id, tt);
    }
  }

  /** The pass changes nothing but the contents of existing `SufferDamage` lists in the live store. */
  lemma {:induction false} MeleePassAgree(s: Store, order: seq<Id>)
    ensures AgreeButDamage(MeleePass(s, order).0, s)
    decreases |order|
  {
    if order != [] {
      var front := order[..|order| - 1];
      MeleePassAgree(s, front);
    }
  }

  /** Pushes extend the amounts of every target that already had `SufferDamage` by its hits, in attack order. */
  lemma {:induction false} MeleePassPushes(s: Store, order: seq<Id>, t: Id)
    requires t in s
    ensures t in MeleePass(s, order).0
    ensures MeleePass(s, order).0[t].sufferDamage ==
      if s[t].sufferDamage.Some? then Some(s[t].sufferDamage.value + HitsOn(s, order, t)) else None
    decreases |order|
  {
    MeleePassAgree(s, order);
    if order == [] {
      if s[t].sufferDamage.Some? {
        assert s[t].sufferDamage.value + [] == s[t].sufferDamage.value;
      }
    } else {
      var front := order[..|order| - 1];
      var id := Last(order);
      MeleePassPushes(s, front, t);
      MeleePassAgree(s, front);
      var live := MeleePass(s, front).0;
      AttackOnePush(live, s, id, t);
      var hf := HitsOn(s, front, t);
      assert HitsOn(s, order, t) == hf + (if Lands(s, id, t) then [DamageBy(s, id, t)] else []);
      if s[t].sufferDamage.Some? && Lands(s, id, t) {
        assert s[t].sufferDamage.value + HitsOn(s, order, t)
            == (s[t].sufferDamage.value + hf) + [DamageBy(s, id, t)];
      } else if s[t].sufferDamage.Some? {
        assert HitsOn(s, order, t) == hf;
      }
    }
  }

  /** The commands one attack queues: at most one insert, for its target when it lands on a target without `SufferDamage`. */
  lemma AttackOneInsert(live: Store, s: Store, id: Id, t: Id)
    requires AgreeButDamage(live, s)
    ensures LastInsert(AttackOne(live, id).1, t) ==
      if Lands(s, id, t) && s[t].sufferDamage.None? then Some([DamageBy(s, id, t)]) else None
  {
    LandsAgree(live, s, id, t);
    var more := AttackOne(live, id).1;
    if id in live && IsAttacker(live[id]) {
      assert live[id].(sufferDamage := None) == s[id].(sufferDamage := None);
      var tt := live[id].wantsToMelee.value;
      LandsAgree(live, s, id, tt);
      if Lands(live, id, tt) && live[tt].sufferDamage.None? {
        assert live[tt].(sufferDamage := None) == s[tt].(sufferDamage := None);
        var d := DamageBy(live, id, tt);
        assert more == [InsertSufferDamage(tt, [d]), RemoveWantsToMelee(id)];
        assert more[..1] == [InsertSufferDamage(tt, [d])];
        assert [InsertSufferDamage(tt, [d])][..0] == [];
        assert LastInsert(more, t) == LastInsert([InsertSufferDamage(tt, [d])], t);
        assert Lands(s, id, t) ==> t == tt;
      } else {
        assert more[..0] == [];
      }
    }
  }

  /** For a target without `SufferDamage`, the last insert queued carries exactly its last hit. */
  lemma {:induction false} MeleePassInserts(s: Store, order: seq<Id>, t: Id)
    ensures LastInsert(MeleePass(s, order).1, t) ==
      if t in s && s[t].sufferDamage.None? && HitsOn(s, order, t) != []
      then Some([Last(HitsOn(s, order, t))]) else None
    decreases |order|
  {
    if order != [] {
      var front := order[..|order| - 1];
      var id := Last(order);
      MeleePassInserts(s, front, t);
      MeleePassAgree(s, front);
      var live, cmds := MeleePass(s, front).0, MeleePass(s, front).1;
      var more := AttackOne(live, id).1;
      assert MeleePass(s, order).1 == cmds + more;
      LastInsertAppend(cmds, more, t);
      AttackOneInsert(live, s, id, t);
    }
  }

  /** The pass queues the removal of the intent of every attacker it visits, and of no other entity. */
  lemma {:induction false} MeleePassRemoves(s: Store, order: seq<Id>, e: Id)
    ensures RemoveWantsToMelee(e) in MeleePass(s, order).1 <==> e in order && e in s && IsAttacker(s[e])
    decreases |order|
  {
    if order != [] {
      var front := order[..|order| - 1];
      var id := Last(order);
      MeleePassRemoves(s, front, e);
      MeleePassAgree(s, front);
      var live, cmds := MeleePass(s, front).0, MeleePass(s, front).1;
      assert MeleePass(s, order).1 == cmds + AttackOne(live, id).1;
      assert order == front + [id];
      if id in s {
        assert s[id].(sufferDamage := None) == live[id].(sufferDamage := None);
      }
    }
  }

  /**
   * The effect of the system on one entity. A target that already had
   * `SufferDamage` gains every hit in attack order; a target without it ends
   * with only the last hit, because the deferred inserts overwrite each other.
   * Every attacker of the pass loses its intent, whether or not it hit; no
   * other component of any entity changes.
   */
  lemma MeleeOutcome(g: Game, order: seq<Id>, t: Id)
    requires g.state != AwaitingInput
    requires t in g.ents
    ensures var r := MeleeCombatSystem(g, order);
      var hits := HitsOn(g.ents, order, t);
      && r.ents.Keys == g.ents.Keys
      && r.ents[t] == g.ents[t].(
           sufferDamage :=
             if g.ents[t].sufferDamage.Some? then Some(g.ents[t].sufferDamage.value + hits)
             else if hits == [] then None
             else Some([Last(hits)]),
           wantsToMelee := if t in order && IsAttacker(g.ents[t]) then None else g.ents[t].wantsToMelee)
  {
    MeleePassAgree(g.ents, order);
    MeleePassPushes(g.ents, order, t);
    MeleePassInserts(g.ents, order, t);
    MeleePassRemoves(g.ents, order, t);
    var live, cmds := MeleePass(g.ents, order).0, MeleePass(g.ents, order).1;
    ApplyCommandsSpec(live, cmds);
    assert live[t].(sufferDamage := None) == g.ents[t].(sufferDamage := None);
  }

  /**
   * Two attackers in one pass against a target that had no `SufferDamage`:
   * only the second attacker's damage is queued.
   */
  lemma SecondInsertOverwritesFirst(g: Game, a: Id, b: Id, t: Id)
    requires g.state != AwaitingInput
    requires t in g.ents && g.ents[t].sufferDamage.None?
    requires a != b && Lands(g.ents, a, t) && Lands(g.ents, b, t)
    ensures t in MeleeCombatSystem(g, [a, b]).ents
    ensures MeleeCombatSystem(g, [a, b]).ents[t].sufferDamage == Some([DamageBy(g.ents, b, t)])
  {
    MeleeOutcome(g, [a, b], t);
    assert Last([a, b]) == b && Last([a]) == a;
    assert [a, b][..1] == [a];
    assert [a][..0] == [];
    assert HitsOn(g.ents, [a], t) == HitsOn(g.ents, [], t) + [DamageBy(g.ents, a, t)];
    assert HitsOn(g.ents, [a, b], t) == HitsOn(g.ents, [a], t) + [DamageBy(g.ents, b, t)];
    assert HitsOn(g.ents, [a, b], t) == [DamageBy(g.ents, a, t), DamageBy(g.ents, b, t)];
  }
}

=== FILE: monster_ai.dfy ===
/**
 * `monster_ai_system` (systems.rs): during `MonsterTurn`, every monster that
 * sees the player either declares a melee attack, which ends the whole pass,
 * or takes one step along the pathfinder's route towards the player.
 */
module MonsterAi {
  import opened Basics
  import opened Components
  import opened GridMaps
  import opened RunStates
  import opened World

  /** The entity matches the query `(Entity, &mut Viewshed, &mut Position, &Name), With<Monster>`. */
  predicate InAiQuery(e: Entity) {
    e.monster && e.viewshed.Some? && e.position.Some? && e.name.Some?
  }

  /** The monster's viewshed contains the `PlayerPosition` point. */
  predicate SeesPlayer(e: Entity, playerPos: Point) {
    InAiQuery(e) && playerPos in e.viewshed.value.visibleTiles
  }

  function DistanceSquared(p: Point, q: Point): int {
    (p.x - q.x) * (p.x - q.x) + (p.y - q.y) * (p.y - q.y)
  }

  /**
   * `DistanceAlg::Pythagoras.distance2d(p, q) < 1.5`, squared and scaled to
   * integers: the square root of `d2` is below 3/2 exactly when `4 * d2 < 9`.
   */
  predicate WithinMeleeReach(p: Point, q: Point) {
    4 * DistanceSquared(p, q) < 9
  }

  lemma SquareAtLeast4(a: int)
    requires a <= -2 || a >= 2
    ensures a * a >= 4
  {
    if a >= 2 {
      assert a * a >= 2 * a;
    } else {
      assert a * a >= -2 * a;
    }
  }

  /** The melee test is ordinary 8-neighbour adjacency (or the same tile): squared distance at most 2. */
  lemma MeleeReachIsAdjacency(p: Point, q: Point)
    ensures WithinMeleeReach(p, q) <==> DistanceSquared(p, q) <= 2
    ensures WithinMeleeReach(p, q) <==> -1 <= p.x - q.x <= 1 && -1 <= p.y - q.y <= 1
  {
    var dx, dy := p.x - q.x, p.y - q.y;
    assert dx * dx >= 0 && dy * dy >= 0;
    if dx <= -2 || dx >= 2 {
      SquareAtLeast4(dx);
    }
    if dy <= -2 || dy >= 2 {
      SquareAtLeast4(dy);
    }
    if -1 <= dx <= 1 && -1 <= dy <= 1 {
      assert dx * dx <= 1 && dy * dy <= 1;
    }
  }

  /** The monster declares an attack on the player. */
  predicate Attacks(e: Entity, playerPos: Point) {
    SeesPlayer(e, playerPos) && WithinMeleeReach(e.position.value, playerPos)
  }

  /** The route the monster asks for: from its own tile to the player's. */
  function PathFor(m: GridMap, e: Entity, playerPos: Point, astar: Pathfinder): NavPath
    requires e.position.Some?
  {
    astar(Idx(m.dims, e.position.value), Idx(m.dims, playerPos), m.blocked)
  }

  /** The route is usable: it succeeded and has a step after the start. */
  predicate CanStep(path: NavPath) {
    path.success && |path.steps| > 1
  }

  /** `e'` is `e` moved to some position with its viewshed flagged dirty; nothing else about it changed. */
  predicate Moved(e: Entity, e': Entity) {
    && e.viewshed.Some?
    && e'.position.Some?
    && e' == e.(position := e'.position, viewshed := Some(e.viewshed.value.(dirty := true)))
  }

  /**
   * A monster that is not in reach follows its path one step: it moves to
   * `path.steps[1]`, decoded as `(i % width, i / width)`; its old tile is
   * unblocked and then its new tile blocked. Without a usable path nothing changes.
   */
  function StepToward(m: GridMap, e: Entity, playerPos: Point, astar: Pathfinder): (r: (GridMap, Entity))
    requires InAiQuery(e)
    ensures r.0.dims == m.dims && r.0.tiles == m.tiles && r.0.visible == m.visible
    ensures r.0.revealed == m.revealed && r.0.content == m.content
    ensures !CanStep(PathFor(m, e, playerPos, astar)) ==> r == (m, e)
    ensures CanStep(PathFor(m, e, playerPos, astar)) ==>
      var step := PathFor(m, e, playerPos, astar).steps[1];
      var from := Idx(m.dims, e.position.value);
      && Moved(e, r.1)
      && (step < |m.tiles| ==>
            && InBounds(m.dims, r.1.position.value)
            && Idx(m.dims, r.1.position.value) == step
            && r.0.blocked[step]
            && (from != step && 0 <= from < |m.tiles| ==> !r.0.blocked[from])
            && forall j :: 0 <= j < |m.tiles| && j != from && j != step ==> r.0.blocked[j] == m.blocked[j])
  {
    var path := PathFor(m, e, playerPos, astar);
    if CanStep(path) then
      var from := Idx(m.dims, e.position.value);
      var q := PointOf(m, path.steps[1]);
      assert path.steps[1] < |m.tiles| ==> InBounds(m.dims, q) && Idx(m.dims, q) == path.steps[1] by {
        if path.steps[1] < |m.tiles| {
          PointOfIdx(m, path.steps[1]);
        }
      }
      var blocked := SetAt(SetAt(m.blocked, from, false), Idx(m.dims, q), true);
      (m.(blocked := blocked), e.(position := Some(q), viewshed := Some(e.viewshed.value.(dirty := true))))
    else (m, e)
  }

  /**
   * One iteration of the loop for an entity that does not attack: a monster
   * that sees the player steps toward it, every other entity is skipped.
   */
  function Visit(m: GridMap, s: Store, id: Id, playerPos: Point, astar: Pathfinder): (r: (GridMap, Store))
    requires !(id in s && Attacks(s[id], playerPos))
    ensures r.0.dims == m.dims && r.0.tiles == m.tiles && r.0.visible == m.visible
    ensures r.0.revealed == m.revealed && r.0.content == m.content
    ensures r.1.Keys == s.Keys
    ensures forall other :: other in s && other != id ==> r.1[other] == s[other]
    ensures id in s && !SeesPlayer(s[id], playerPos) ==> r.1[id] == s[id]
    ensures !(id in s && SeesPlayer(s[id], playerPos)) ==> r == (m, s)
    ensures id in s && SeesPlayer(s[id], playerPos) ==>
      || r.1[id] == s[id]
      || (Moved(s[id], r.1[id]) && (PathsInRange(astar, |m.tiles|) ==> InBounds(m.dims, r.1[id].position.value)))
    ensures id in s && SeesPlayer(s[id], playerPos) && !CanStep(PathFor(m, s[id], playerPos, astar)) ==> r == (m, s)
    ensures id in s && SeesPlayer(s[id], playerPos) && CanStep(PathFor(m, s[id], playerPos, astar)) ==>
      && Moved(s[id], r.1[id])
      && r == (StepToward(m, s[id], playerPos, astar).0, s[id := StepToward(m, s[id], playerPos, astar).1])
  {
    if id in s && SeesPlayer(s[id], playerPos) then
      var (m1, e1) := StepToward(m, s[id], playerPos, astar);
      var path := PathFor(m, s[id], playerPos, astar);
      assert PathsInRange(astar, |m.tiles|) && CanStep(path) ==> path.steps[1] < |m.tiles|;
      assert !CanStep(path) ==> s[id := e1] == s;
      (m1, s[id := e1])
    else (m, s)
  }

  /** The query loop; the first monster with the player in reach ends it. */
  function AiPass(m: GridMap, s: Store, order: seq<Id>, playerPos: Point, player: Id, astar: Pathfinder): (GridMap, Store)
    decreases |order|
  {
    if order == [] then (m, s)
    else
      var id := order[0];
      if id in s && Attacks(s[id], playerPos) then
        (m, s[id := s[id].(wantsToMelee := Some(player))])
      else
        var (m1, s1) := Visit(m, s, id, playerPos, astar);
        AiPass(m1, s1, order[1..], playerPos, player, astar)
  }

  function MonsterAiSystem(g: Game, order: seq<Id>, player: Id, astar: Pathfinder): (r: Game)
    ensures g.state != MonsterTurn ==> r == g
    ensures r.state == g.state && r.playerPos == g.playerPos && r.ents.Keys == g.ents.Keys
    ensures r.grid.dims == g.grid.dims && r.grid.tiles == g.grid.tiles
  {
    if g.state == MonsterTurn then
      AiPassFrame(g.grid, g.ents, order, g.playerPos, player, astar);
      var (m, s) := AiPass(g.grid, g.ents, order, g.playerPos, player, astar);
      g.(grid := m, ents := s)
    else g
  }

  /**
   * A monster that does not see the player, and every entity that is not a
   * monster of the query, leaves the pass exactly as it entered it; of the map
   * only `blocked` can change, and it does not when no visited monster sees
   * the player.
   */
  lemma {:induction false} AiPassFrame(m: GridMap, s: Store, order: seq<Id>, playerPos: Point, player: Id, astar: Pathfinder)
    ensures var r := AiPass(m, s, order, playerPos, player, astar);
      && r.0.dims == m.dims && r.0.tiles == m.tiles && r.0.visible == m.visible
      && r.0.revealed == m.revealed && r.0.content == m.content
      && r.1.Keys == s.Keys
      && (forall id :: id in s && !(id in order && SeesPlayer(s[id], playerPos)) ==> r.1[id] == s[id])
      && ((forall j :: 0 <= j < |order| && order[j] in s ==> !SeesPlayer(s[order[j]], playerPos)) ==> r.0 == m)
    decreases |order|
  {
    if order != [] {
      var id := order[0];
      assert order == [id] + order[1..];
      if !(id in s && Attacks(s[id], playerPos)) {
        var (m1, s1) := Visit(m, s, id, playerPos, astar);
        AiPassFrame(m1, s1, order[1..], playerPos, player, astar);
        if forall j :: 0 <= j < |order| && order[j] in s ==> !SeesPlayer(s[order[j]], playerPos) {
          assert m1 == m && s1 == s;
          forall j | 0 <= j < |order[1..]| && order[1..][j] in s1
            ensures !SeesPlayer(s1[order[1..][j]], playerPos)
          {
            assert order[1..][j] == order[j + 1];
          }
        }
      }
    }
  }

  /**
   * A monster that sees the player ends the pass in one of three ways: as it
   * was, with a melee intent on the player (only if it had the player in
   * reach) and nothing else changed, or moved to a tile of the map with its
   * viewshed flagged dirty (only if it did not).
   */
  lemma {:induction false} AiPassOutcomes(m: GridMap, s: Store, order: seq<Id>, playerPos: Point, player: Id, astar: Pathfinder)
    requires Distinct(order)
    requires PathsInRange(astar, |m.tiles|)
    ensures AiPass(m, s, order, playerPos, player, astar).1.Keys == s.Keys
    ensures var r := AiPass(m, s, order, playerPos, player, astar);
      forall id :: id in s && SeesPlayer(s[id], playerPos) ==>
        || r.1[id] == s[id]
        || (r.1[id] == s[id].(wantsToMelee := Some(player)) && Attacks(s[id], playerPos))
        || (Moved(s[id], r.1[id]) && !Attacks(s[id], playerPos) && InBounds(m.dims, r.1[id].position.value))
    decreases |order|
  {
    AiPassFrame(m, s, order, playerPos, player, astar);
    if order != [] {
      var id := order[0];
      if !(id in s && Attacks(s[id], playerPos)) {
        assert Distinct(order[1..]);
        var (m1, s1) := Visit(m, s, id, playerPos, astar);
        AiPassOutcomes(m1, s1, order[1..], playerPos, player, astar);
        AiPassFrame(m1, s1, order[1..], playerPos, player, astar);
        assert id !in order[1..];
      }
    }
  }

  /**
   * The first monster in iteration order that has the player in reach gets
   * `WantsToMelee { target: player }` without moving, and the pass ends there:
   * every entity after it in the order is left untouched, and the map is the
   * one the monsters before it left.
   */
  lemma {:induction false} AiAttackEndsPass(m: GridMap, s: Store, order: seq<Id>, playerPos: Point, player: Id, astar: Pathfinder, k: int)
    requires Distinct(order)
    requires 0 <= k < |order| && order[k] in s && Attacks(s[order[k]], playerPos)
    requires forall j :: 0 <= j < k && order[j] in s ==> !Attacks(s[order[j]], playerPos)
    ensures AiPass(m, s, order, playerPos, player, astar).1.Keys == s.Keys
    ensures var r := AiPass(m, s, order, playerPos, player, astar);
      && r.1[order[k]] == s[order[k]].(wantsToMelee := Some(player))
      && (forall j :: k < j < |order| && order[j] in s ==> r.1[order[j]] == s[order[j]])
      && r.0 == AiPass(m, s, order[..k], playerPos, player, astar).0
    decreases |order|
  {
    AiPassFrame(m, s, order, playerPos, player, astar);
    var id := order[0];
    if k > 0 {
      assert Distinct(order[1..]);
      var (m1, s1) := Visit(m, s, id, playerPos, astar);
      forall j | 0 < j < |order| && order[j] in s
        ensures s1[order[j]] == s[order[j]]
      {
        assert order[j] != id;
      }
      AiAttackEndsPass(m1, s1, order[1..], playerPos, player, astar, k - 1);
      assert order[..k][0] == id && order[..k][1..] == order[1..][..k - 1];
      forall j | k < j < |order| && order[j] in s
        ensures AiPass(m, s, order, playerPos, player, astar).1[order[j]] == s[order[j]]
      {
        assert order[1..][j - 1] == order[j];
      }
    } else {
      forall j | 0 < j < |order|
        ensures order[j] != id
      {
      }
      assert order[..0] == [];
    }
  }

  /** If no monster has the player in reach, no entity's melee intent changes. */
  lemma {:induction false} AiNoAttackNoIntent(m: GridMap, s: Store, order: seq<Id>, playerPos: Point, player: Id, astar: Pathfinder)
    requires Distinct(order)
    requires forall j :: 0 <= j < |order| && order[j] in s ==> !Attacks(s[order[j]], playerPos)
    ensures AiPass(m, s, order, playerPos, player, astar).1.Keys == s.Keys
    ensures var r := AiPass(m, s, order, playerPos, player, astar);
      forall id :: id in s ==> r.1[id].wantsToMelee == s[id].wantsToMelee
    decreases |order|
  {
    AiPassFrame(m, s, order, playerPos, player, astar);
    if order != [] {
      var id := order[0];
      assert Distinct(order[1..]);
      var (m1, s1) := Visit(m, s, id, playerPos, astar);
      forall j | 0 <= j < |order[1..]| && order[1..][j] in s1
        ensures !Attacks(s1[order[1..][j]], playerPos)
      {
        assert order[1..][j] == order[j + 1] != id;
      }
      AiNoAttackNoIntent(m1, s1, order[1..], playerPos, player, astar);
    }
  }

  /**
   * When no monster before position `k` of the order attacks, the pass is the
   * pass over the first `k` entities followed by the pass over the rest, and
   * the first part leaves every entity outside it as it was.
   */
  lemma {:induction false} AiPassPrefix(m: GridMap, s: Store, order: seq<Id>, playerPos: Point, player: Id, astar: Pathfinder, k: nat)
    requires Distinct(order) && k <= |order|
    requires forall j :: 0 <= j < k && order[j] in s ==> !Attacks(s[order[j]], playerPos)
    ensures var (mk, sk) := AiPass(m, s, order[..k], playerPos, player, astar);
      && sk.Keys == s.Keys
      && (forall x :: x in s && x !in order[..k] ==> sk[x] == s[x])
      && AiPass(m, s, order, playerPos, player, astar) == AiPass(mk, sk, order[k..], playerPos, player, astar)
    decreases k
  {
    if k > 0 {
      var id := order[0];
      var (m1, s1) := Visit(m, s, id, playerPos, astar);
      var rest := order[1..];
      assert Distinct(rest);
      forall j | 0 <= j < k - 1 && rest[j] in s1
        ensures !Attacks(s1[rest[j]], playerPos)
      {
        assert rest[j] == order[j + 1] != id;
      }
      AiPassPrefix(m1, s1, rest, playerPos, player, astar, k - 1);
      assert order[..k][0] == id && order[..k][1..] == rest[..k - 1];
      assert rest[k - 1..] == order[k..];
      forall x | x in s && x !in order[..k]
        ensures AiPass(m, s, order[..k], playerPos, player, astar).1[x] == s[x]
      {
        assert x != id && x !in rest[..k - 1];
      }
    } else {
      assert order[..0] == [] && order[0..] == order;
    }
  }

  /**
   * A monster that sees the player but not in reach, with no attacking
   * monster before it in the order, ends the pass exactly where `StepToward`
   * puts it on the map as it stands at its turn: it moves whenever that path
   * is usable, and stays put otherwise.
   */
  lemma AiStepsMonster(m: GridMap, s: Store, order: seq<Id>, playerPos: Point, player: Id, astar: Pathfinder, k: nat)
    requires Distinct(order) && k < |order|
    requires order[k] in s && SeesPlayer(s[order[k]], playerPos) && !Attacks(s[order[k]], playerPos)
    requires forall j :: 0 <= j < k && order[j] in s ==> !Attacks(s[order[j]], playerPos)
    ensures var mk := AiPass(m, s, order[..k], playerPos, player, astar).0;
      var e := s[order[k]];
      var r := AiPass(m, s, order, playerPos, player, astar);
      && order[k] in r.1
      && r.1[order[k]] == StepToward(mk, e, playerPos, astar).1
      && (CanStep(PathFor(mk, e, playerPos, astar)) ==> Moved(e, r.1[order[k]]))
      && (!CanStep(PathFor(mk, e, playerPos, astar)) ==> r.1[order[k]] == e)
  {
    var id := order[k];
    AiPassPrefix(m, s, order, playerPos, player, astar, k);
    assert id !in order[..k];
    var (mk, sk) := AiPass(m, s, order[..k], playerPos, player, astar);
    var tail := order[k..];
    assert tail[0] == id && Distinct(tail[1..]) && id !in tail[1..];
    var (m1, s1) := Visit(mk, sk, id, playerPos, astar);
    AiPassFrame(m1, s1, tail[1..], playerPos, player, astar);
  }

  /** With a pathfinder that stays on the map, every position stays on the map. */
  lemma AiKeepsPositionsInBounds(g: Game, order: seq<Id>, player: Id, astar: Pathfinder)
    requires Distinct(order)
    requires PathsInRange(astar, |g.grid.tiles|)
    requires PositionsInBounds(g.grid.dims, g.ents)
    ensures PositionsInBounds(g.grid.dims, MonsterAiSystem(g, order, player, astar).ents)
  {
    if g.state == MonsterTurn {
      AiPassFrame(g.grid, g.ents, order, g.playerPos, player, astar);
      AiPassOutcomes(g.grid, g.ents, order, g.playerPos, player, astar);
    }
  }
}

=== FILE: numerals.dfy ===
/**
 * Decimal rendering of a count, as `format!("{}", idx)` writes a `usize`,
 * together with the parser that undoes it.
 */
module Numerals {
  predicate IsDigit(c: char) {
    '0' <= c <= '9'
  }

  predicate AllDigits(s: string) {
    forall k :: 0 <= k < |s| ==> IsDigit(s[k])
  }

  function DigitChar(d: nat): (c: char)
    requires d < 10
    ensures IsDigit(c) && c as int - '0' as int == d
  {
    (d + '0' as int) as char
  }

  /** The decimal numeral of `n`: digits only, most significant first, no leading zero. */
  function NatToString(n: nat): (r: string)
    ensures |r| >= 1 && AllDigits(r)
    ensures r[0] == '0' ==> n == 0
    decreases n
  {
    if n < 10 then [DigitChar(n)] else NatToString(n / 10) + [DigitChar(n % 10)]
  }

  /** The value of a string of decimal digits. */
  function ParseDigits(s: string): nat
    requires AllDigits(s)
    decreases |s|
  {
    if s == [] then 0
    else ParseDigits(s[..|s| - 1]) * 10 + (s[|s| - 1] as int - '0' as int)
  }

  /** Parsing a rendered numeral gives the number back. */
  lemma {:induction false} ParseNatToString(n: nat)
    ensures ParseDigits(NatToString(n)) == n
    decreases n
  {
    var r := NatToString(n);
    if n < 10 {
      assert r[..0] == [];
    } else {
      ParseNatToString(n / 10);
      assert r[..|r| - 1] == NatToString(n / 10);
    }
  }

  /** Distinct numbers have distinct numerals. */
  lemma NatToStringInjective(i: nat, j: nat)
    requires NatToString(i) == NatToString(j)
    ensures i == j
  {
    ParseNatToString(i);
    ParseNatToString(j);
  }
}

=== FILE: pipeline.dfy ===
/**
 * One tick of the schedule built in `main` (main.rs): the stages of
 * `Schedule.AllStages`, which the builder calls produce (`Schedule.AppStages`),
 * run in order, one system each.
 */
module Pipeline {
  import opened Basics
  import opened Components
  import opened GridMaps
  import opened RunStates
  import opened World
  import opened Visibility
  import opened MonsterAi
  import opened MapIndexing
  import opened Melee
  import opened DamageResolution
  import opened CorpseCleanup
  import opened Schedule

  /**
   * What a tick is run with: the query iteration order, the player entity,
   * the two library routines, and the effect of `player_movement_system`
   * (which player.rs does not contain).
   */
  datatype Env = Env(order: seq<Id>, player: Id, fov: FieldOfView, astar: Pathfinder, movement: Game -> Game)

  /** The system of each stage; rendering changes nothing. */
  function RunStage(st: Stage, g: Game, env: Env): Game {
    match st
    case Update => VisibilitySystem(g, env.order, env.fov)
    case MonsterAiStage => MonsterAiSystem(g, env.order, env.player, env.astar)
    case MapIndexingStage => MapIndexingSystem(g, env.order)
    case PlayerMovement => env.movement(g)
    case MeleeCombat => MeleeCombatSystem(g, env.order)
    case Damage => DamageSystem(g)
    case CorpseCleanupStage => CorpseCleanupSystem(g)
    case Render => g
  }

  function RunStages(stages: seq<Stage>, g: Game, env: Env): Game
    decreases |stages|
  {
    if stages == [] then g else RunStages(stages[1..], RunStage(stages[0], g, env), env)
  }

  /** One frame: every stage of the schedule once, in order. */
  function Tick(g: Game, env: Env): Game {
    RunStages(AllStages(), g, env)
  }

  /** Running the stages from position `k` is running stage `k` and then the rest. */
  lemma RunStagesFrom(st: seq<Stage>, k: nat, x: Stage, g: Game, env: Env)
    requires k < |st| && st[k] == x
    ensures RunStages(st[k..], g, env) == RunStages(st[k + 1..], RunStage(x, g, env), env)
  {
    assert st[k..][1..] == st[k + 1..];
  }

  /** A tick runs the stages of the schedule once each, in the order the builder chained them. */
  lemma TickStages(g: Game, env: Env)
    ensures Tick(g, env) ==
      RunStage(Render, RunStage(CorpseCleanupStage, RunStage(Damage, RunStage(MeleeCombat, RunStage(PlayerMovement,
        RunStage(MapIndexingStage, RunStage(MonsterAiStage, RunStage(Update, g, env), env), env), env), env), env), env), env)
  {
    var st := AllStages();
    var h1 := RunStage(Update, g, env);
    var h2 := RunStage(MonsterAiStage, h1, env);
    var h3 := RunStage(MapIndexingStage, h2, env);
    var h4 := RunStage(PlayerMovement, h3, env);
    var h5 := RunStage(MeleeCombat, h4, env);
    var h6 := RunStage(Damage, h5, env);
    var h7 := RunStage(CorpseCleanupStage, h6, env);
    assert st[0] == Update && st[1] == MonsterAiStage && st[2] == MapIndexingStage && st[3] == PlayerMovement;
    assert st[4] == MeleeCombat && st[5] == Damage && st[6] == CorpseCleanupStage && st[7] == Render;
    RunStagesFrom(st, 0, Update, g, env);
    RunStagesFrom(st, 1, MonsterAiStage, h1, env);
    RunStagesFrom(st, 2, MapIndexingStage, h2, env);
    RunStagesFrom(st, 3, PlayerMovement, h3, env);
    RunStagesFrom(st, 4, MeleeCombat, h4, env);
    RunStagesFrom(st, 5, Damage, h5, env);
    RunStagesFrom(st, 6, CorpseCleanupStage, h6, env);
    RunStagesFrom(st, 7, Render, h7, env);
    assert st[8..] == [] && st[0..] == st;
  }

  /** A tick is the systems one after the other; rendering changes nothing. */
  lemma TickComposition(g: Game, env: Env)
    ensures Tick(g, env) ==
      CorpseCleanupSystem(DamageSystem(MeleeCombatSystem(env.movement(
        MapIndexingSystem(MonsterAiSystem(VisibilitySystem(g, env.order, env.fov), env.order, env.player, env.astar), env.order)),
        env.order)))
  {
    TickStages(g, env);
    var h1 := VisibilitySystem(g, env.order, env.fov);
    assert RunStage(Update, g, env) == h1;
    var h2 := MonsterAiSystem(h1, env.order, env.player, env.astar);
    assert RunStage(MonsterAiStage, h1, env) == h2;
    var h3 := MapIndexingSystem(h2, env.order);
    assert RunStage(MapIndexingStage, h2, env) == h3;
    var h4 := env.movement(h3);
    assert RunStage(PlayerMovement, h3, env) == h4;
    var h5 := MeleeCombatSystem(h4, env.order);
    assert RunStage(MeleeCombat, h4, env) == h5;
    var h6 := DamageSystem(h5);
    assert RunStage(Damage, h5, env) == h6;
    var h7 := CorpseCleanupSystem(h6);
    assert RunStage(CorpseCleanupStage, h6, env) == h7;
  }

  /** The player-movement stage changes neither the turn state nor the set of entities. */
  ghost predicate MovementKeepsTurn(env: Env) {
    forall h :: env.movement(h).state == h.state && env.movement(h).ents.Keys == h.ents.Keys
  }

  /** With movement not changing the turn state, one tick performs exactly one transition of the machine. */
  lemma TickAdvancesTurn(g: Game, env: Env)
    requires MovementKeepsTurn(env)
    ensures Tick(g, env).state == NextState(g.state)
  {
    TickComposition(g, env);
  }

  /**
   * While awaiting input, every gated system is idle: only the movement stage
   * and corpse cleanup act, and the state stays `AwaitingInput`.
   */
  lemma AwaitingInputTick(g: Game, env: Env)
    requires g.state == AwaitingInput
    requires MovementKeepsTurn(env)
    ensures Tick(g, env) == CorpseCleanupSystem(env.movement(g))
    ensures Tick(g, env).state == AwaitingInput
  {
    TickComposition(g, env);
  }

  /** Without input in between, a player turn is followed by a monster turn, and the next tick returns to awaiting input. */
  lemma PlayerTurnSettles(g: Game, env: Env)
    requires g.state == PlayerTurn
    requires MovementKeepsTurn(env)
    ensures Tick(g, env).state == MonsterTurn
    ensures Tick(Tick(g, env), env).state == AwaitingInput
  {
    TickAdvancesTurn(g, env);
    TickAdvancesTurn(Tick(g, env), env);
  }

  /**
   * Outside `AwaitingInput`, no melee intent and no queued damage survive a
   * tick: every `WantsToMelee` of an entity with `Name` and `CombatStats` is
   * consumed, and every entity with `CombatStats` ends without `SufferDamage`.
   */
  lemma TickConsumesIntentsAndDamage(g: Game, env: Env)
    requires g.state != AwaitingInput
    requires MovementKeepsTurn(env)
    requires forall id :: id in g.ents ==> id in env.order
    ensures var r := Tick(g, env);
      forall id :: id in r.ents ==>
        && (r.ents[id].name.Some? && r.ents[id].stats.Some? ==> r.ents[id].wantsToMelee.None?)
        && (r.ents[id].stats.Some? ==> r.ents[id].sufferDamage.None?)
  {
    TickComposition(g, env);
    var g1 := VisibilitySystem(g, env.order, env.fov);
    var g2 := MonsterAiSystem(g1, env.order, env.player, env.astar);
    var g3 := MapIndexingSystem(g2, env.order);
    var g4 := env.movement(g3);
    var g5 := MeleeCombatSystem(g4, env.order);
    var g6 := DamageSystem(g5);
    assert g4.state == g.state && g4.ents.Keys == g.ents.Keys;
    forall id | id in g5.ents
      ensures g5.ents[id].name.Some? && g5.ents[id].stats.Some? ==> g5.ents[id].wantsToMelee.None?
    {
      MeleeOutcome(g4, env.order, id);
    }
    assert g5.state != AwaitingInput;
    forall id | id in g6.ents
      ensures g6.ents[id].name.Some? && g6.ents[id].stats.Some? ==> g6.ents[id].wantsToMelee.None?
    {
      assert g6.ents[id] == ApplyDamage(g5.ents[id]);
    }
  }

  /**
   * Melee then damage, for a target with `CombatStats`: when it already
   * carried `SufferDamage`, it loses the earlier amounts and every hit of the
   * pass; when it did not, only the last hit of the pass is taken.
   */
  lemma MeleeThenDamage(g: Game, order: seq<Id>, t: Id)
    requires g.state != AwaitingInput
    requires t in g.ents && g.ents[t].stats.Some?
    ensures var r := DamageSystem(MeleeCombatSystem(g, order));
      var hits := HitsOn(g.ents, order, t);
      var hp := g.ents[t].stats.value.hp;
      && t in r.ents && r.ents[t].stats.Some? && r.ents[t].sufferDamage.None?
      && r.ents[t].stats.value.hp ==
           if g.ents[t].sufferDamage.Some? then hp - Sum(g.ents[t].sufferDamage.value) - Sum(hits)
           else if hits == [] then hp
           else hp - Last(hits)
  {
    var g5 := MeleeCombatSystem(g, order);
    MeleeOutcome(g, order, t);
    var e := g5.ents[t];
    assert e.stats == g.ents[t].stats;
    if g.ents[t].sufferDamage.Some? {
      SumAppend(g.ents[t].sufferDamage.value, HitsOn(g.ents, order, t));
    } else if HitsOn(g.ents, order, t) != [] {
      var l := Last(HitsOn(g.ents, order, t));
      assert [l][1..] == [];
      assert Sum([l]) == l;
    }
  }
}

=== FILE: run_state.dfy ===
/**
 * `RunState`, the turn state machine. The enum in main.rs lists `PreRun` twice
 * (lines 22 and 24); a Rust enum cannot declare the same variant twice, so the
 * model has the four distinct states.
 */
module RunStates {

  datatype RunState = PreRun | AwaitingInput | PlayerTurn | MonsterTurn

  /**
   * The transition `damage_system` performs after applying damage. The
   * `AwaitingInput` arm is a no-op: the system is gated off in that state.
   */
  function NextState(s: RunState): (r: RunState)
    ensures s == AwaitingInput <==> r == s
    ensures r == AwaitingInput <==> s != PlayerTurn
    ensures r != PreRun && r != PlayerTurn
  {
    match s
    case AwaitingInput => AwaitingInput
    case PreRun => AwaitingInput
    case PlayerTurn => MonsterTurn
    case MonsterTurn => AwaitingInput
  }

  /** `n` transitions in a row. */
  function Advance(s: RunState, n: nat): RunState
    decreases n
  {
    if n == 0 then s else Advance(NextState(s), n - 1)
  }

  /** Without player input, at most two transitions bring every state to `AwaitingInput`, which then stays put. */
  lemma SettlesInTwo(s: RunState, n: nat)
    requires n >= 2
    ensures Advance(s, n) == AwaitingInput
  {
    if s == PlayerTurn {
      assert Advance(s, n) == Advance(AwaitingInput, n - 2);
      AwaitingInputStays(n - 2);
    } else {
      assert Advance(s, n) == Advance(AwaitingInput, n - 1);
      AwaitingInputStays(n - 1);
    }
  }

  /**
   * Without player input the machine never enters `PreRun` or `PlayerTurn`
   * again, and it is in `MonsterTurn` only right after a `PlayerTurn`.
   */
  lemma {:induction false} NoInputStates(s: RunState, n: nat)
    requires n >= 1
    ensures Advance(s, n) == AwaitingInput || Advance(s, n) == MonsterTurn
    ensures Advance(s, n) == MonsterTurn <==> s == PlayerTurn && n == 1
    decreases n
  {
    if n > 1 {
      NoInputStates(NextState(s), n - 1);
    }
  }

  lemma {:induction false} AwaitingInputStays(n: nat)
    ensures Advance(AwaitingInput, n) == AwaitingInput
    decreases n
  {
    if n > 0 {
      AwaitingInputStays(n - 1);
    }
  }
}

=== FILE: schedule.dfy ===
/**
 * The stage list built in `main` (main.rs): `visibility_system` runs in Bevy's
 * `Update` stage, and the game's single-threaded stages are chained after it
 * with `add_stage_after`, followed by rendering. Bevy's other core stages
 * (`First`, `PreUpdate`, `PostUpdate`, `Last`) run no system of the game and
 * are left out of the initial list, which holds only `Update`.
 */
module Schedule {
  datatype Stage = Update | MonsterAiStage | MapIndexingStage | PlayerMovement | MeleeCombat | Damage | CorpseCleanupStage | Render

  /** `add_stage_after(after, st)`: the schedule with `st` inserted after the first `after`. */
  function AddStageAfter(stages: seq<Stage>, after: Stage, st: Stage): (r: seq<Stage>)
    requires after in stages
    ensures |r| == |stages| + 1 && st in r
  {
    if stages[0] == after then [after, st] + stages[1..]
    else [stages[0]] + AddStageAfter(stages[1..], after, st)
  }

  /** `st` goes immediately after the first `after`; the stages before and after it keep their order. */
  lemma {:induction false} AddStageAfterSpec(p: seq<Stage>, after: Stage, q: seq<Stage>, st: Stage)
    requires after !in p
    ensures AddStageAfter(p + [after] + q, after, st) == p + [after, st] + q
    decreases |p|
  {
    var stages := p + [after] + q;
    if p == [] {
      assert stages[0] == after && stages[1..] == q;
    } else {
      assert stages[0] == p[0] && stages[1..] == p[1..] + [after] + q;
      AddStageAfterSpec(p[1..], after, q, st);
      assert p + [after, st] + q == [p[0]] + (p[1..] + [after, st] + q);
    }
  }

  /** Adding a stage after the current last stage appends it. */
  lemma AppendAfterLast(p: seq<Stage>, after: Stage, st: Stage)
    requires after !in p
    ensures AddStageAfter(p + [after], after, st) == p + [after] + [st]
  {
    AddStageAfterSpec(p, after, [], st);
    assert p + [after] + [] == p + [after];
    assert p + [after, st] + [] == p + [after] + [st];
  }

  /** The schedule's stages in the order one tick runs them. */
  function AllStages(): seq<Stage>
  {
    [Update, MonsterAiStage, MapIndexingStage, PlayerMovement, MeleeCombat, Damage, CorpseCleanupStage, Render]
  }

  /**
   * The stage list after the builder calls of `main`, each anchored on the
   * stage the call before it added: every stage, in order, each once.
   */
  function AppStages(): (r: seq<Stage>)
    ensures r == AllStages()
  {
    var calls := [(Update, MonsterAiStage), (MonsterAiStage, MapIndexingStage),
      (MapIndexingStage, PlayerMovement), (PlayerMovement, MeleeCombat),
      (MeleeCombat, Damage), (Damage, CorpseCleanupStage), (CorpseCleanupStage, Render)];
    assert Chained([Update], calls);
    BuildChained([Update], calls);
    assert [Update] + Added(calls) == AllStages();
    Build([Update], calls)
  }

  /**
   * The schedule after the calls `add_stage_after(calls[0].0, calls[0].1)`, ...
   * in turn. Bevy panics on a call whose anchor is missing; here such a call
   * ends the build, and the calls of `main` never reach it (`BuildChained`).
   */
  function Build(stages: seq<Stage>, calls: seq<(Stage, Stage)>): seq<Stage>
    decreases |calls|
  {
    if calls == [] || calls[0].0 !in stages then stages
    else Build(AddStageAfter(stages, calls[0].0, calls[0].1), calls[1..])
  }

  /** The stages the calls add, in call order. */
  function Added(calls: seq<(Stage, Stage)>): seq<Stage>
    decreases |calls|
  {
    if calls == [] then [] else [calls[0].1] + Added(calls[1..])
  }

  /** Every call anchors on the last stage so far, and adds a stage not yet present. */
  predicate Chained(stages: seq<Stage>, calls: seq<(Stage, Stage)>)
    decreases |calls|
  {
    calls == [] ||
    (&& stages != [] && calls[0].0 == stages[|stages| - 1]
     && calls[0].0 !in stages[..|stages| - 1] && calls[0].1 !in stages
     && Chained(stages + [calls[0].1], calls[1..]))
  }

  /** Calls each anchored on the stage added just before append their stages in call order. */
  lemma {:induction false} BuildChained(stages: seq<Stage>, calls: seq<(Stage, Stage)>)
    requires Chained(stages, calls)
    ensures Build(stages, calls) == stages + Added(calls)
    decreases |calls|
  {
    if calls != [] {
      var p := stages[..|stages| - 1];
      assert stages == p + [calls[0].0];
      AppendAfterLast(p, calls[0].0, calls[0].1);
      BuildChained(stages + [calls[0].1], calls[1..]);
      assert stages + [calls[0].1] + Added(calls[1..]) == stages + Added(calls);
    }
  }
}

=== FILE: setup.dfy ===
/**
 * `setup` of the complete tutorial (main.rs): the player spawns at the centre
 * of the first room, one monster at the centre of every later room, and the
 * game starts in `PreRun` with `PlayerPosition` at the player. Map generation
 * and the random rolls are inputs: `centers` are the room centres in room order
 * and `rolls[k]` is the roll for the monster of room `k + 1`.
 */
module Setup {
  import opened Basics
  import opened Components
  import opened GridMaps
  import opened RunStates
  import opened World
  import opened Numerals

  const PlayerStats := CombatStats(30, 30, 2, 5)
  const MonsterStats := CombatStats(16, 16, 1, 4)
  const SightRange := 8

  /** A fresh viewshed: no tiles yet, flagged for the first recompute. */
  const FreshViewshed := Viewshed([], SightRange, true)

  /** Roll 1 spawns a goblin; every other roll an orc. */
  function MonsterKind(roll: int): string {
    if roll == 1 then "Goblin" else "Orc"
  }

  function MonsterGlyph(roll: int): char {
    if roll == 1 then 'g' else 'o'
  }

  /** `format!("{} #{}", name, idx)`. */
  function MonsterName(kind: string, idx: nat): string {
    kind + " #" + NatToString(idx)
  }

  function PlayerEntity(at: Point): Entity {
    Empty.(position := Some(at), glyph := Some('@'), viewshed := Some(FreshViewshed),
      name := Some("Player"), stats := Some(PlayerStats), player := true)
  }

  /** The monster of the room with index `idx + 1` among all rooms. */
  function MonsterEntity(at: Point, roll: int, idx: nat): Entity {
    Empty.(position := Some(at), glyph := Some(MonsterGlyph(roll)), viewshed := Some(FreshViewshed),
      name := Some(MonsterName(MonsterKind(roll), idx)), blocksTile := true,
      stats := Some(MonsterStats), monster := true)
  }

  /**
   * The spawned entities, in spawn order: entity 0 is the player, entity
   * `k + 1` is the monster of room `k + 1`. `map.rooms[0]` requires a room.
   */
  function Spawn(centers: seq<Point>, rolls: seq<int>): (s: Store)
    requires |centers| >= 1 && |rolls| == |centers| - 1
    ensures Enumerates(seq(|centers|, i => i), s)
    ensures SolePlayer(s, 0) && s[0].position == Some(centers[0])
  {
    var s := map i | 0 <= i < |centers| ::
      if i == 0 then PlayerEntity(centers[0]) else MonsterEntity(centers[i], rolls[i - 1], i - 1);
    var ord := seq(|centers|, i => i);
    assert forall id :: id in s ==> ord[id] == id;
    assert Distinct(ord);
    s
  }

  /**
   * Every entity stands on its room's centre with an empty, dirty viewshed of
   * range 8 and no pending melee or damage; exactly the monsters block their tile.
   */
  lemma SpawnedEntities(centers: seq<Point>, rolls: seq<int>)
    requires |centers| >= 1 && |rolls| == |centers| - 1
    ensures var s := Spawn(centers, rolls);
      forall id :: id in s ==>
        && s[id].position == Some(centers[id])
        && s[id].viewshed == Some(Viewshed([], 8, true))
        && s[id].wantsToMelee.None? && s[id].sufferDamage.None?
        && s[id].name.Some? && s[id].stats.Some?
        && (s[id].monster <==> id != 0)
        && (s[id].blocksTile <==> id != 0)
  {
  }

  /**
   * The player has 30 of 30 hit points, defense 2 and power 5; the monster of
   * room `k + 1` has 16 of 16, defense 1 and power 4, and is a goblin `g`
   * named `Goblin #k` when its roll is 1 and an orc `o` named `Orc #k` otherwise.
   */
  lemma SpawnedStats(centers: seq<Point>, rolls: seq<int>)
    requires |centers| >= 1 && |rolls| == |centers| - 1
    ensures var s := Spawn(centers, rolls);
      && s[0].stats == Some(CombatStats(30, 30, 2, 5)) && s[0].glyph == Some('@') && s[0].name == Some("Player")
      && forall id :: id in s && id != 0 ==>
        && s[id].stats == Some(CombatStats(16, 16, 1, 4))
        && s[id].glyph == Some(if rolls[id - 1] == 1 then 'g' else 'o')
        && s[id].name == Some(MonsterName(if rolls[id - 1] == 1 then "Goblin" else "Orc", id - 1))
  {
  }

  /** `setup`: the spawned entities on the generated map, in state `PreRun`, with `PlayerPosition` at the first room's centre. */
  function NewGame(grid: GridMap, centers: seq<Point>, rolls: seq<int>): (g: Game)
    requires |centers| >= 1 && |rolls| == |centers| - 1
    ensures g.grid == grid && g.state == PreRun && g.ents == Spawn(centers, rolls)
    ensures SolePlayer(g.ents, 0) && g.ents[0].position == Some(g.playerPos)
  {
    Game(grid, Spawn(centers, rolls), PreRun, centers[0])
  }

  /** The number after the `#` tells monster names apart, whatever their kinds. */
  lemma MonsterNameInjective(k1: string, i: nat, k2: string, j: nat)
    requires MonsterName(k1, i) == MonsterName(k2, j)
    ensures i == j
  {
    var ni, nj := NatToString(i), NatToString(j);
    assert MonsterName(k1, i) == (k1 + " ") + "#" + ni;
    assert MonsterName(k2, j) == (k2 + " ") + "#" + nj;
    AfterLastHash(k1 + " ", ni);
    AfterLastHash(k2 + " ", nj);
    NatToStringInjective(i, j);
  }

  /** No two monsters share a name. */
  lemma MonsterNamesDistinct(centers: seq<Point>, rolls: seq<int>, a: Id, b: Id)
    requires |centers| >= 1 && |rolls| == |centers| - 1
    requires a in Spawn(centers, rolls) && b in Spawn(centers, rolls)
    requires a != b && a != 0 && b != 0
    ensures Spawn(centers, rolls)[a].name != Spawn(centers, rolls)[b].name
  {
    var s := Spawn(centers, rolls);
    SpawnedStats(centers, rolls);
    if s[a].name == s[b].name {
      MonsterNameInjective(MonsterKind(rolls[a - 1]), a - 1, MonsterKind(rolls[b - 1]), b - 1);
    }
  }

  /** The part of `s` after its last `#` (all of `s` when it has none). */
  function AfterLast(s: string): string
    decreases |s|
  {
    if s == [] then []
    else if s[|s| - 1] == '#' then []
    else AfterLast(s[..|s| - 1]) + [s[|s| - 1]]
  }

  /** A numeral has no `#`, so it is what follows the last `#` of a monster name. */
  lemma {:induction false} AfterLastHash(prefix: string, digits: string)
    requires AllDigits(digits)
    ensures AfterLast(prefix + "#" + digits) == digits
    decreases |digits|
  {
    var s := prefix + "#" + digits;
    if digits == [] {
      assert s[|s| - 1] == '#';
    } else {
      var front := digits[..|digits| - 1];
      AfterLastHash(prefix, front);
      assert s[..|s| - 1] == prefix + "#" + front;
      assert digits == front + [digits[|digits| - 1]];
    }
  }

  /** Every room centre inside the map puts every spawned entity inside the map. */
  lemma SpawnInBounds(grid: GridMap, centers: seq<Point>, rolls: seq<int>)
    requires |centers| >= 1 && |rolls| == |centers| - 1
    requires forall i :: 0 <= i < |centers| ==> InBounds(grid.dims, centers[i])
    ensures PositionsInBounds(grid.dims, NewGame(grid, centers, rolls).ents)
  {
    SpawnedEntities(centers, rolls);
  }
}

=== FILE: tutorial5.dfy ===
/**
 * Chapter 5 of the tutorial (bevy_roguelike_tutorial_5): one `tick` system
 * that moves the player by the key pressed and then runs its own
 * `visibility_system`, which recomputes every viewshed on every call and
 * reveals the player's tiles. The chapter's world is the map and the entity
 * store; it has no turn state and no `PlayerPosition`.
 */
module Tutorial5 {
  import opened Basics
  import opened Components
  import opened GridMaps
  import opened World
  import opened Visibility

  /** The last column and row of the 80x50 console the position is clamped to. */
  const MaxX := 79
  const MaxY := 49

  /** `min(hi, max(0, v))`. */
  function Clamp(v: int, hi: nat): (r: int)
    ensures 0 <= r <= hi
    ensures 0 <= v <= hi ==> r == v
    ensures v < 0 ==> r == 0
    ensures v > hi ==> r == hi
  {
    if v < 0 then 0 else if v > hi then hi else v
  }

  /** The entity matches `Query<(&mut Position, &mut Viewshed), With<Player>>`. */
  predicate Mover(e: Entity) {
    e.player && e.position.Some? && e.viewshed.Some?
  }

  /** `p` is the one entity the player query matches, so `single_mut` succeeds. */
  predicate SoleMover(s: Store, p: Id) {
    p in s && Mover(s[p]) && forall id :: id in s && Mover(s[id]) ==> id == p
  }

  /** `single_mut()`: the matching entity when there is exactly one, `None` where the source panics. */
  function PlayerMover(s: Store): (r: Option<Id>)
    ensures r.Some? <==> exists p :: p in s && SoleMover(s, p)
    ensures r.Some? ==> SoleMover(s, r.value)
  {
    if exists p :: p in s && SoleMover(s, p) then
      var p :| p in s && SoleMover(s, p);
      Some(p)
    else None
  }

  /** The point `delta` away from `pos`. */
  function Offset(pos: Point, delta: Point): Point {
    Point(pos.x + delta.x, pos.y + delta.y)
  }

  /**
   * The movement step of `tick`. A zero delta does nothing. Otherwise the
   * destination's tile index is looked up; an index outside the map and a
   * failing `single_mut` are the source's panics, here `None`. A wall keeps
   * the player in place; any other tile moves the player there, clamped to
   * the console, and flags the viewshed dirty.
   */
  function MovePlayer(m: GridMap, s: Store, delta: Point): (r: Option<Store>)
    ensures delta == Point(0, 0) ==> r == Some(s)
    ensures r.Some? ==> r.value.Keys == s.Keys
    ensures delta != Point(0, 0) && PlayerMover(s).None? ==> r.None?
  {
    if delta == Point(0, 0) then Some(s)
    else match PlayerMover(s)
      case None => None
      case Some(p) =>
        var dest := Offset(s[p].position.value, delta);
        var i := Idx(m.dims, dest);
        if !(0 <= i < |m.tiles|) then None
        else if m.tiles[i] == Wall then Some(s)
        else Some(s[p := s[p].(
          position := Some(Point(Clamp(dest.x, MaxX), Clamp(dest.y, MaxY))),
          viewshed := Some(s[p].viewshed.value.(dirty := true)))])
  }

  /**
   * A nonzero move of the sole player: it fails exactly when the destination's
   * index lies outside the map; a wall leaves everything as it was; otherwise
   * only the player changes, to the clamped destination with a dirty viewshed
   * and its tiles kept.
   */
  lemma MoveOutcome(m: GridMap, s: Store, p: Id, delta: Point)
    requires SoleMover(s, p) && delta != Point(0, 0)
    ensures var dest := Offset(s[p].position.value, delta);
      var i := Idx(m.dims, dest);
      var r := MovePlayer(m, s, delta);
      && (r.None? <==> !(0 <= i < |m.tiles|))
      && (0 <= i < |m.tiles| && m.tiles[i] == Wall ==> r == Some(s))
      && (0 <= i < |m.tiles| && m.tiles[i] != Wall ==>
            && r.Some? && p in r.value
            && (forall id :: id in s && id != p ==> r.value[id] == s[id])
            && r.value[p].position == Some(Point(Clamp(dest.x, MaxX), Clamp(dest.y, MaxY)))
            && r.value[p].viewshed == Some(s[p].viewshed.value.(dirty := true))
            && r.value[p].(position := s[p].position, viewshed := s[p].viewshed) == s[p])
  {
    assert PlayerMover(s) == Some(p);
  }

  /** On an 80x50 map a move that lands inside the map goes exactly to the destination, which is not a wall. */
  lemma MoveInsideIsExact(m: GridMap, s: Store, p: Id, delta: Point)
    requires m.dims == Dims(MaxX + 1, MaxY + 1)
    requires SoleMover(s, p) && delta != Point(0, 0)
    requires InBounds(m.dims, Offset(s[p].position.value, delta))
    ensures var r := MovePlayer(m, s, delta);
      && r.Some? && p in r.value && r.value[p].position.Some?
      && var at := r.value[p].position.value;
      && (at == Offset(s[p].position.value, delta) || r == Some(s))
      && (r != Some(s) ==> m.tiles[Idx(m.dims, at)] != Wall)
  {
    var dest := Offset(s[p].position.value, delta);
    IdxInRange(m, dest);
    MoveOutcome(m, s, p, delta);
  }

  /** One entity's turn in chapter 5's `visibility_system`: recompute always, reveal only for the player. */
  function Reveal5One(m: GridMap, s: Store, id: Id, fov: FieldOfView): (GridMap, Store) {
    if id in s && s[id].viewshed.Some? && s[id].position.Some? then
      var tiles := NewTiles(m.dims, s[id], fov);
      var m' := if s[id].player then m.(revealed := MarkAll(m.dims, m.revealed, tiles)) else m;
      (m', s[id := s[id].(viewshed := Some(s[id].viewshed.value.(visibleTiles := tiles)))])
    else (m, s)
  }

  /** Chapter 5's `visibility_system` over the query order. */
  function Visibility5(m: GridMap, s: Store, order: seq<Id>, fov: FieldOfView): (GridMap, Store)
    decreases |order|
  {
    if order == [] then (m, s)
    else
      var (m1, s1) := Reveal5One(m, s, order[0], fov);
      Visibility5(m1, s1, order[1..], fov)
  }

  /** The chapter 5 recompute of one entity: fresh tiles, the `dirty` flag left as it was. */
  function Recomputed5(d: Dims, e: Entity, fov: FieldOfView): Entity {
    if e.viewshed.Some? && e.position.Some? then
      e.(viewshed := Some(e.viewshed.value.(visibleTiles := NewTiles(d, e, fov))))
    else e
  }

  /**
   * Every entity of the query gets the tiles of its current field of view,
   * dirty or not, and keeps its flag; of the map only `revealed` can change,
   * and `visible` is never written.
   */
  lemma {:induction false} Visibility5Frame(m: GridMap, s: Store, order: seq<Id>, fov: FieldOfView)
    requires Distinct(order)
    ensures var (m', s') := Visibility5(m, s, order, fov);
      && m'.dims == m.dims && m'.tiles == m.tiles && m'.blocked == m.blocked
      && m'.visible == m.visible && m'.content == m.content
      && s'.Keys == s.Keys
      && forall id :: id in s ==>
           s'[id] == if id in order then Recomputed5(m.dims, s[id], fov) else s[id]
    decreases |order|
  {
    if order != [] {
      var (m1, s1) := Reveal5One(m, s, order[0], fov);
      assert Distinct(order[1..]);
      Visibility5Frame(m1, s1, order[1..], fov);
      forall id | id in s
        ensures Visibility5(m, s, order, fov).1[id] == if id in order then Recomputed5(m.dims, s[id], fov) else s[id]
      {
        assert id in order <==> id == order[0] || id in order[1..] by {
          assert order == [order[0]] + order[1..];
        }
      }
    }
  }

  /**
   * With `p` the only player, the pass adds the player's new tiles to
   * `revealed` when the query visits the player, and leaves `revealed` alone
   * otherwise.
   */
  lemma {:induction false} Visibility5Revealed(m: GridMap, s: Store, order: seq<Id>, fov: FieldOfView, p: Id)
    requires Distinct(order)
    requires forall id :: id in s && s[id].player ==> id == p
    ensures var r := Visibility5(m, s, order, fov).0;
      if p in order && p in s && s[p].player && s[p].viewshed.Some? && s[p].position.Some? then
        r.revealed == MarkAll(m.dims, m.revealed, NewTiles(m.dims, s[p], fov))
      else
        r.revealed == m.revealed
    decreases |order|
  {
    if order != [] {
      var (m1, s1) := Reveal5One(m, s, order[0], fov);
      assert Distinct(order[1..]);
      assert order == [order[0]] + order[1..];
      Visibility5Revealed(m1, s1, order[1..], fov, p);
      if order[0] == p {
        assert p !in order[1..];
      }
    }
  }

  /** `tick`: the movement step, then the visibility pass; `None` where the movement step panics. */
  function Tick5(m: GridMap, s: Store, delta: Point, order: seq<Id>, fov: FieldOfView): (r: Option<(GridMap, Store)>)
    ensures r.Some? <==> MovePlayer(m, s, delta).Some?
  {
    match MovePlayer(m, s, delta)
    case None => None
    case Some(s1) => Some(Visibility5(m, s1, order, fov))
  }

  /**
   * After a tick of the sole player visited by the query, the player's
   * viewshed holds the field of view from where the player now stands, every
   * tile of it is revealed, and nothing revealed before is forgotten.
   */
  lemma Tick5RevealsView(m: GridMap, s: Store, delta: Point, order: seq<Id>, fov: FieldOfView, p: Id)
    requires SolePlayer(s, p) && Mover(s[p])
    requires Distinct(order) && p in order
    requires Tick5(m, s, delta, order, fov).Some?
    ensures var (m', s') := Tick5(m, s, delta, order, fov).value;
      var s1 := MovePlayer(m, s, delta).value;
      && p in s' && s'[p].viewshed.Some? && s'[p].position == s1[p].position
      && s'[p].viewshed.value.visibleTiles == NewTiles(m.dims, s1[p], fov)
      && m'.tiles == m.tiles
      && (forall i :: 0 <= i < |m.tiles| && m.revealed[i] ==> m'.revealed[i])
      && forall q :: q in s'[p].viewshed.value.visibleTiles ==>
           var i := Idx(m.dims, q); 0 <= i < |m.tiles| && m'.revealed[i]
  {
    var s1 := MovePlayer(m, s, delta).value;
    if delta != Point(0, 0) {
      MoveOutcome(m, s, p, delta);
    }
    assert p in s1 && Mover(s1[p]) && forall id :: id in s1 && s1[id].player ==> id == p;
    Visibility5Frame(m, s1, order, fov);
    Visibility5Revealed(m, s1, order, fov, p);
    var tiles := NewTiles(m.dims, s1[p], fov);
    MarkAllSpec(m, m.revealed, tiles);
    forall q | q in tiles
      ensures 0 <= Idx(m.dims, q) < |m.tiles| && Covers(m.dims, tiles, Idx(m.dims, q))
    {
      IdxInRange(m, q);
    }
  }

  /** Chapter 5's `setup`: only the player, at the first room's centre, with `@` and a dirty viewshed of range 8. */
  function Setup5(centers: seq<Point>): (s: Store)
    requires |centers| >= 1
    ensures SolePlayer(s, 0) && SoleMover(s, 0)
    ensures s.Keys == {0}
    ensures s[0].position == Some(centers[0]) && s[0].glyph == Some('@')
    ensures s[0].viewshed == Some(Viewshed([], 8, true))
    ensures s[0].name.None? && s[0].stats.None? && !s[0].monster && !s[0].blocksTile
  {
    map[0 := Empty.(position := Some(centers[0]), glyph := Some('@'),
      viewshed := Some(Viewshed([], 8, true)), player := true)]
  }
}

=== FILE: visibility.dfy ===
/**
 * `visibility_system` of the complete tutorial (systems.rs): outside
 * `AwaitingInput`, every entity whose viewshed is dirty gets a fresh field of
 * view, trimmed to the map, and the player's refresh rebuilds the map's
 * `visible` layer and extends its `revealed` layer.
 */
module Visibility {
  import opened Basics
  import opened Components
  import opened GridMaps
  import opened RunStates
  import opened World

  /** `visible_tiles.retain(..)`: keeps exactly the points of `pts` that lie on the map. */
  function KeepInBounds(d: Dims, pts: seq<Point>): (r: seq<Point>)
    ensures forall p :: p in r <==> p in pts && InBounds(d, p)
    ensures |r| <= |pts|
    decreases |pts|
  {
    if pts == [] then []
    else (if InBounds(d, pts[0]) then [pts[0]] else []) + KeepInBounds(d, pts[1..])
  }

  /** The entity takes part in the pass and its viewshed asks for a recompute. */
  predicate Recomputes(e: Entity) {
    e.viewshed.Some? && e.position.Some? && e.viewshed.value.dirty
  }

  /** The field of view from the entity's position with its range, trimmed to the map. */
  function NewTiles(d: Dims, e: Entity, fov: FieldOfView): (r: seq<Point>)
    requires e.viewshed.Some? && e.position.Some?
    ensures forall p :: p in r ==> InBounds(d, p)
  {
    KeepInBounds(d, fov(e.position.value, e.viewshed.value.range))
  }

  /** The entity after its own part of the pass. */
  function Refreshed(d: Dims, e: Entity, fov: FieldOfView): Entity {
    if Recomputes(e) then
      e.(viewshed := Some(e.viewshed.value.(visibleTiles := NewTiles(d, e, fov), dirty := false)))
    else e
  }

  /** One iteration of the query loop, for entity `id`. */
  function RefreshOne(m: GridMap, s: Store, id: Id, fov: FieldOfView): (GridMap, Store) {
    if id in s && Recomputes(s[id]) then
      var tiles := NewTiles(m.dims, s[id], fov);
      var m' := if s[id].player
        then m.(visible := MarkAll(m.dims, AllFalse(m), tiles), revealed := MarkAll(m.dims, m.revealed, tiles))
        else m;
      (m', s[id := Refreshed(m.dims, s[id], fov)])
    else (m, s)
  }

  /** The query loop over `order`. */
  function RefreshAll(m: GridMap, s: Store, order: seq<Id>, fov: FieldOfView): (GridMap, Store)
    decreases |order|
  {
    if order == [] then (m, s)
    else
      var (m1, s1) := RefreshOne(m, s, order[0], fov);
      RefreshAll(m1, s1, order[1..], fov)
  }

  function VisibilitySystem(g: Game, order: seq<Id>, fov: FieldOfView): (r: Game)
    ensures g.state == AwaitingInput ==> r == g
    ensures r.state == g.state && r.playerPos == g.playerPos && r.ents.Keys == g.ents.Keys
    ensures r.grid.dims == g.grid.dims && r.grid.tiles == g.grid.tiles
    ensures r.grid.blocked == g.grid.blocked && r.grid.content == g.grid.content
  {
    if g.state == AwaitingInput then g
    else
      RefreshAllFrame(g.grid, g.ents, order, fov);
      var (m, s) := RefreshAll(g.grid, g.ents, order, fov);
      g.(grid := m, ents := s)
  }

  /**
   * Entity by entity, the pass is `Refreshed` for the visited entities and the
   * identity for the others; of the map only `visible` and `revealed` change.
   */
  lemma {:induction false} RefreshAllFrame(m: GridMap, s: Store, order: seq<Id>, fov: FieldOfView)
    ensures RefreshAll(m, s, order, fov).0.dims == m.dims
    ensures RefreshAll(m, s, order, fov).0.tiles == m.tiles
    ensures RefreshAll(m, s, order, fov).0.blocked == m.blocked
    ensures RefreshAll(m, s, order, fov).0.content == m.content
    ensures RefreshAll(m, s, order, fov).1.Keys == s.Keys
    ensures forall id :: id in s ==>
      RefreshAll(m, s, order, fov).1[id] == if id in order then Refreshed(m.dims, s[id], fov) else s[id]
    decreases |order|
  {
    if order != [] {
      var (m1, s1) := RefreshOne(m, s, order[0], fov);
      RefreshAllFrame(m1, s1, order[1..], fov);
      forall id | id in s
        ensures RefreshAll(m, s, order, fov).1[id] == if id in order then Refreshed(m.dims, s[id], fov) else s[id]
      {
        assert id in order <==> id == order[0] || id in order[1..] by {
          assert order == [order[0]] + order[1..];
        }
      }
    }
  }

  /**
   * Only the player's refresh touches the map: with `p` the only possible
   * player, `visible` becomes exactly the player's new tiles and `revealed`
   * gains them when the player is recomputed, and both stay as they were otherwise.
   */
  lemma {:induction false} RefreshAllLayers(m: GridMap, s: Store, order: seq<Id>, fov: FieldOfView, p: Id)
    requires Distinct(order)
    requires forall id :: id in s && s[id].player ==> id == p
    ensures var r := RefreshAll(m, s, order, fov).0;
      if p in order && p in s && s[p].player && Recomputes(s[p]) then
        && r.visible == MarkAll(m.dims, AllFalse(m), NewTiles(m.dims, s[p], fov))
        && r.revealed == MarkAll(m.dims, m.revealed, NewTiles(m.dims, s[p], fov))
      else
        r.visible == m.visible && r.revealed == m.revealed
    decreases |order|
  {
    if order != [] {
      var (m1, s1) := RefreshOne(m, s, order[0], fov);
      assert Distinct(order[1..]);
      assert order == [order[0]] + order[1..];
      RefreshAllLayers(m1, s1, order[1..], fov, p);
      if order[0] == p {
        assert p !in order[1..];
        if p in s && s[p].player && Recomputes(s[p]) {
          var tiles := NewTiles(m.dims, s[p], fov);
          assert m1.visible == MarkAll(m.dims, AllFalse(m), tiles);
          assert m1.revealed == MarkAll(m.dims, m.revealed, tiles);
        }
      }
    }
  }

  /** Every viewshed the pass recomputes holds only points inside the map, so every index it writes exists. */
  lemma RecomputedTilesInBounds(g: Game, order: seq<Id>, fov: FieldOfView, id: Id)
    requires g.state != AwaitingInput
    requires id in g.ents && id in order && Recomputes(g.ents[id])
    ensures var r := VisibilitySystem(g, order, fov);
      && id in r.ents
      && r.ents[id].viewshed.Some?
      && !r.ents[id].viewshed.value.dirty
      && forall q :: q in r.ents[id].viewshed.value.visibleTiles ==>
           InBounds(g.grid.dims, q) && 0 <= Idx(g.grid.dims, q) < |g.grid.tiles|
  {
    RefreshAllFrame(g.grid, g.ents, order, fov);
    forall q | q in NewTiles(g.grid.dims, g.ents[id], fov) {
      IdxInRange(g.grid, q);
    }
  }

  /** A viewshed that is not dirty keeps its tiles, and every entity keeps its other components. */
  lemma CleanViewshedsUntouched(g: Game, order: seq<Id>, fov: FieldOfView, id: Id)
    requires id in g.ents && !Recomputes(g.ents[id])
    ensures id in VisibilitySystem(g, order, fov).ents
    ensures VisibilitySystem(g, order, fov).ents[id] == g.ents[id]
  {
    RefreshAllFrame(g.grid, g.ents, order, fov);
  }

  /**
   * For the sole player: after a pass that recomputed the player's viewshed,
   * tile `i` is visible exactly when some point of that viewshed lies on it,
   * and it is revealed exactly when it was revealed before or is now visible.
   */
  lemma PlayerVisibility(g: Game, order: seq<Id>, fov: FieldOfView, p: Id)
    requires g.state != AwaitingInput
    requires Distinct(order) && p in order
    requires SolePlayer(g.ents, p) && Recomputes(g.ents[p])
    ensures var r := VisibilitySystem(g, order, fov);
      && p in r.ents && r.ents[p].viewshed.Some?
      && forall i :: 0 <= i < |g.grid.tiles| ==>
        && (r.grid.visible[i] <==> Covers(g.grid.dims, r.ents[p].viewshed.value.visibleTiles, i))
        && (r.grid.revealed[i] <==> g.grid.revealed[i] || r.grid.visible[i])
  {
    var m := g.grid;
    RefreshAllFrame(m, g.ents, order, fov);
    RefreshAllLayers(m, g.ents, order, fov, p);
    var tiles := NewTiles(m.dims, g.ents[p], fov);
    MarkAllSpec(m, AllFalse(m), tiles);
    MarkAllSpec(m, m.revealed, tiles);
  }

  /**
   * Whatever the pass does, `revealed` only goes from false to true, and when
   * the player's viewshed is not recomputed (only monsters' are) neither
   * `visible` nor `revealed` changes.
   */
  lemma LayersOnlyFollowPlayer(g: Game, order: seq<Id>, fov: FieldOfView, p: Id)
    requires Distinct(order)
    requires forall id :: id in g.ents && g.ents[id].player ==> id == p
    ensures var r := VisibilitySystem(g, order, fov);
      && (forall i :: 0 <= i < |g.grid.tiles| && g.grid.revealed[i] ==> r.grid.revealed[i])
      && (!(p in order && p in g.ents && g.ents[p].player && Recomputes(g.ents[p])) ==>
            r.grid.visible == g.grid.visible && r.grid.revealed == g.grid.revealed)
  {
    var m := g.grid;
    RefreshAllLayers(m, g.ents, order, fov, p);
    if p in order && p in g.ents && g.ents[p].player && Recomputes(g.ents[p]) {
      MarkAllMonotone(m, m.revealed, NewTiles(m.dims, g.ents[p], fov));
    }
  }
}

=== FILE: world.dfy ===
/**
 * The state one tick of the pipeline works on: the `Map` resource, the entity
 * store, the `GameState` resource and the `PlayerPosition` resource.
 */
module World {
  import opened Basics
  import opened Components
  import opened GridMaps
  import opened RunStates

  datatype Game = Game(grid: GridMap, ents: Store, state: RunState, playerPos: Point)

  /** Every entity with a position stands on a tile of the map. */
  predicate PositionsInBounds(d: Dims, store: Store) {
    forall id :: id in store && store[id].position.Some? ==> InBounds(d, store[id].position.value)
  }

  /** Result of `a_star_search`. */
  datatype NavPath = NavPath(success: bool, steps: seq<nat>)

  /** `field_of_view(origin, range, map)` for the session's fixed tile layout. */
  type FieldOfView = (Point, int) -> seq<Point>

  /** `a_star_search(start, goal, map)`; the map enters through its `blocked` layer. */
  type Pathfinder = (int, int, seq<bool>) -> NavPath

  /** Every step of every path the pathfinder returns is a tile index of a map with `size` tiles. */
  ghost predicate PathsInRange(astar: Pathfinder, size: int) {
    forall start, goal, blocked, k ::
      0 <= k < |astar(start, goal, blocked).steps| ==> astar(start, goal, blocked).steps[k] < size
  }
}
